=== FILE: README.md ===
# Sorting visualizer: a verified model of the frame engines and playback

The sorting visualizer precomputes the whole animation of a sort as a list
of frames. Each frame holds a copy of the array and the indices to
highlight: `compare`, `swap` and `sorted`. There are five engines: bubble,
selection, insertion, merge (top-down) and quick sort (Lomuto partition).
A run stores the frames with a playback cursor and an autoplay flag. The
"advance" command moves the cursor. "view" clamps the cursor into the log
and shows the frame at it. "reset" deletes the run.

This Dafny project models that logic from `app.py`:

- `Frames`: the frame record, the `snapshot` recorder and the vocabulary of
  log properties. These are sortedness, permutation, array length and
  highlight bounds.
- `BubbleSort`, `SelectionSort`, `InsertionSort`, `MergeSort`, `QuickSort`:
  the engines. Each is a method over `seq<int>` that returns the frame log.
  Value semantics stand in for `deepcopy`, so the caller's input is never
  changed. The recursive helpers of merge and quick sort return the new
  array and the frames they recorded, and the caller appends them.
- `Algorithms`: the `ALGORITHMS` table, its lookup, and the fallback to
  bubble sort for an unknown key.
- `Playback`: the cursor state machine of `advance` and the index clamp of
  `view`.
- `Registry`: the run store as a finite map. `start` is a method that
  runs the chosen engine and returns the new store; `view`, `advance` and
  `reset` are functions over the store. The client's session is an
  optional run id passed in.

Every engine is proved to keep `Frames.EngineContract`:

- there are at least two frames;
- the first frame is the input with no highlights;
- the last frame holds the input sorted ascending, as a permutation, with
  no compare or swap marks;
- every frame array has the input's length;
- every highlight of every frame except the last is a valid index;
- an input of at most one element gives exactly two frames.

For a non-empty input, the last frame tags every index sorted.

Bubble, selection and quick sort keep every frame a permutation of the
input. Insertion and merge sort do not: a shift or a merge write is
recorded while a value is duplicated. For them the model proves the weaker
fact that every frame draws its values from the input.

An unrecognised navigation command is not treated as "next", although one
might expect it to be. In `advance` it falls through every branch and
changes nothing, and the model follows the code: `Playback.Advance` leaves
the cursor unchanged. Only a missing command defaults to "next"
(`Playback.Command`, `Registry.MissingDirIsNext`).

## Model

| member | source | states |
|---|---|---|
| Frames.Snapshot | app.py:13-26 | Recording appends exactly one frame, holding the array and highlights by value, after the unchanged earlier frames. So a log whose frames all have length n, name only indices below n, permute an input or draw their values from it keeps that property when the new frame has it. Every engine records its frames through it. |
| Frames.Swap | app.py:39 | Exchanging two positions swaps their values, leaves every other position alone and permutes the array. |
| Frames.RangeSet | app.py:43 | The set built for `range(lo, hi)` holds exactly the integers lo..hi-1. |
| BubbleSort.CompareSwap | app.py:37-40 | Comparing (j, j+1) and swapping when out of order moves the largest of b[0..j+1] to j+1 and keeps the fixed tail sorted and no smaller than anything before it. |
| BubbleSort.BubbleStep | app.py:37-40 | One inner step appends exactly a compare frame on (j, j+1), then, only when a[j] > a[j+1], swaps the pair and appends a swap frame on it; earlier frames are kept. The array stays a permutation and the largest of a[0..j+1] ends at j+1. |
| BubbleSort.BubblePass | app.py:36-40 | One pass carries the maximum of a[..bound] to bound-1, so the fixed tail grows by one; every frame is a permutation with valid indices. |
| BubbleSort.PassAndFix | app.py:35-42 | One outer iteration extends the log without changing its earlier frames and ends it with the "Fix position" frame tagging positions n-i-1..n-1 over the array after the pass, whose tail of i+1 elements is then fixed. |
| BubbleSort.BubbleSortFrames | app.py:29-44 | Bubble sort keeps the engine contract, tags every index sorted at the end, and records only permutations of the input with valid indices. On at least three elements it opens with the comparison of (0, 1), then the swap of that pair if it is out of order, else the comparison of (1, 2). |
| SelectionSort.PlaceMinimum | app.py:59-60 | Swapping the minimum of a[i..] into position i extends the sorted, fixed prefix by one. |
| SelectionSort.ScanMin | app.py:53-58 | The scan returns the index of the first smallest element of a[i..]. It records exactly one frame per later position plus one per new minimum (a position smaller than everything before it in the scan), and every frame holds the unchanged array, compares two increasing valid indices, marks no swap and tags exactly the fixed set. Its first frame compares (i, i+1); its second compares i with i+1 when that became the minimum, else with i+2. |
| SelectionSort.ScanStep | app.py:55-58 | One scan step records the compare frame of the current minimum with j over the unchanged array, and then the new-minimum frame (i, j) exactly when a[j] is smaller, in which case j becomes the minimum index; the frame count grows by one plus one per new minimum. |
| SelectionSort.SelectionPass | app.py:53-63 | One outer iteration returns the scan's minimum index, and changes the array only by swapping i with it when they differ, which extends the fixed prefix by i. Its log is the scan's frames, then the swap frame on (i, minIdx) exactly when they differ, then the frame tagging fixed plus i. |
| SelectionSort.SwapAndFix | app.py:59-63 | After the scan, the array is swapped at (i, minIdx) exactly when they differ, the swap frame follows the scan's frames only then, and the last frame tags fixed plus i over the resulting array. |
| SelectionSort.PassAndRecord | app.py:52-63 | One outer iteration extends the log without changing its earlier frames, ends it with the frame tagging positions 0..i over the new array, extends the fixed prefix by one and keeps the selection opening. |
| SelectionSort.SelectionSortFrames | app.py:46-66 | Selection sort keeps the engine contract and records only permutations. A non-empty input ends with every index tagged sorted and every frame index valid; the empty input ends with index -1 tagged, so not every index is valid. On at least three elements it opens with the comparisons of (0, 1) and then (0, 1) or (0, 2) over the unchanged input. |
| InsertionSort.ShiftRight | app.py:77-79 | Shifting b[j] into the hole keeps both sides of the hole sorted, the left no greater than the right, and the right part above the key. |
| InsertionSort.PlaceKey | app.py:77-81 | When the element left of the hole is at most the key, or there is none, writing the key leaves a[0..i] sorted. |
| InsertionSort.ShiftOnce | app.py:78-80 | One shift copies b[j] to j+1 and changes nothing else, and appends exactly the swap frame on (j, j+1) holding the new array; the loop state is kept: filling the hole with the key would give a permutation, and every frame draws its values from the array. |
| InsertionSort.ShiftAll | app.py:75-80 | The shift loop stops with the hole where the key belongs and the loop state intact. |
| InsertionSort.FillHole | app.py:81-82 | Placing the key writes it at j+1 and nothing else, and appends exactly the swap frame on j+1 holding the new array; the array is a permutation with a[0..i] sorted and nothing past i changed. |
| InsertionSort.InsertKey | app.py:74-82 | Inserting a[i] into the sorted a[0..i-1] leaves a[0..i] sorted, the array a permutation and everything past i unchanged; the frames start with the key frame. |
| InsertionSort.InsertionSortFrames | app.py:68-84 | Insertion sort keeps the engine contract, tags every index sorted at the end, and every frame draws its values from the input. On at least two elements its second frame is the key frame on index 1 over the input. |
| MergeSort.MergeSeqPermutes | app.py:97-111 | The reference merge (take the smaller head, the left one on ties) is a permutation of its two inputs. |
| MergeSort.MergeSeqSorted | app.py:97-111 | The reference merge of two sorted runs is sorted. |
| MergeSort.StepLeft | app.py:99-100 | Writing the left head when it is not greater than the right head keeps the written prefix a prefix of the reference merge. |
| MergeSort.StepRight | app.py:101-102 | Writing the right head when it is smaller than the left head keeps the written prefix a prefix of the reference merge. |
| MergeSort.Write | app.py:100-111 | A write changes exactly the next destination k, just past the values written so far, to v and nothing else, and appends exactly one swap frame on k holding the new array; the written range grows by v. |
| MergeSort.TakeLeft | app.py:99-104 | Taking the left head writes it at l+i+j and nothing else, appends exactly the swap frame on l+i+j, and advances i; the written range stays a prefix of the reference merge. |
| MergeSort.TakeRight | app.py:101-104 | Taking the right head writes it at l+i+j and nothing else, appends exactly the swap frame on l+i+j, and advances j; the written range stays a prefix of the reference merge. |
| MergeSort.MergeBoth | app.py:95-104 | The two-sided loop stops when a copy runs out, after one compare frame and one write frame per comparison. |
| MergeSort.DrainLeft | app.py:105-108 | Copying the rest of the left run writes one swap frame per element and completes the reference merge. |
| MergeSort.DrainRight | app.py:109-112 | Copying the rest of the right run writes one swap frame per element and completes the reference merge. |
| MergeSort.Merged | app.py:113 | The closing frame tags exactly l..r sorted. |
| MergeSort.MergeCopies | app.py:93-112 | The three loops leave a[l..r] equal to the reference merge of the two runs, change nothing outside l..r, and make between min(run lengths) and r-l comparisons. |
| MergeSort.Merge | app.py:92-113 | merge(l, m, r) changes only l..r, into a permutation that is sorted when both runs were. Its frames are the compare/write pattern with one write per element, then the "merged" frame. |
| MergeSort.MergeRuns | app.py:120 | Merging two sorted adjacent runs gives one sorted run, permuting only within l..r. |
| MergeSort.MergeSortRange | app.py:115-120 | sort(l, r) leaves a[l..r] sorted and permuted and the rest untouched; it records no frame and changes nothing exactly when l >= r, and otherwise its first frame is the compare at destination l over the array as given. |
| MergeSort.MergeSortFrames | app.py:86-124 | Merge sort keeps the engine contract, tags every index sorted at the end, and every frame draws its values from the input. On at least two elements its second frame is the compare at destination 0 over the input. |
| QuickSort.PartitionStep | app.py:136-141 | One scan step appends a compare frame on (j, high); when a[j] is below the pivot, i advances and, only when i+1 differs from j, the two are swapped and a swap frame on (i+1, j) is appended; earlier frames are kept. Elements left of i+1 stay below the pivot and the rest up to j at least the pivot. |
| QuickSort.PartitionScan | app.py:133-141 | After the scan, a[low..i] is below the pivot, a[i+1..high-1] is at least the pivot, and the pivot is still at high. |
| QuickSort.Partition | app.py:132-145 | The result p lies in low..high and holds the pivot a[high]; everything before it in the range is smaller and everything after it at least as large; only low..high is permuted; every swap frame names two distinct positions. |
| QuickSort.Assemble | app.py:147-151 | Sorting both sides of a partitioned range sorts the whole range. |
| QuickSort.QuickSortRange | app.py:147-151 | quick(low, high) leaves a[low..high] sorted and permuted and the rest untouched; it records no frame exactly when low >= high. |
| QuickSort.QuickSortFrames | app.py:126-155 | Quick sort keeps the engine contract, tags every index sorted at the end, records only permutations with valid indices, and every swap frame names two distinct positions. On at least two elements its second frame compares 0 with the last index over the input. |
| Algorithms.Lookup | app.py:157-163 | The table finds an algorithm exactly for the five keys, and the one it finds has that key. |
| Algorithms.Resolve | app.py:192 | The lookup with default gives the algorithm with the key, or bubble sort exactly when no algorithm has it. |
| Algorithms.KeyRoundTrip | app.py:157-163 | Every algorithm is found under its own key. |
| Algorithms.OpeningsDistinct | app.py:29-155 | On an input of at least three elements, no log opens the way two different engines open: the opening identifies which engine produced the frames. |
| Algorithms.RunEngine | app.py:192-193 | Every engine keeps the engine contract and draws frames from the input; bubble, selection and quick sort record only permutations; and the log opens the way the chosen algorithm's engine opens (Algorithms.Opening). |
| Registry.MissingDirIsNext | app.py:240 | An "advance" request that names no direction has exactly the effect of one that names "next". |
| Playback.Advance | app.py:241-250 | next/prev step by one and stop at the ends; first/last jump to 0 and L-1; toggle_auto flips only autoplay; any other command changes nothing; an in-range cursor stays in range. |
| Playback.ClampIndex | app.py:214 | The shown index lies in the log, equals the stored index when that is in range, and otherwise is the nearer end. |
| Playback.ClampIdempotent | app.py:214-215 | Clamping the stored, already clamped index changes nothing. |
| Playback.ReplayInRange | app.py:241-250 | No sequence of commands moves an in-range cursor out of the log. |
| Playback.NextsReachLast | app.py:241-242 | Enough "next" commands reach the last frame and stay there, with autoplay unchanged. |
| Playback.StepsUndo | app.py:241-244 | Away from the ends, "prev" undoes "next" and "next" undoes "prev". |
| Playback.CommandsIdempotent | app.py:245-250 | Toggling autoplay twice restores the cursor; repeating "first" or "last" changes nothing more. |
| Registry.ClampSize | app.py:178 | The size lies in 5..120, is kept when already there, and otherwise is the nearer bound. |
| Registry.RegisterAsWritten | app.py:196-203 | Storing a run as written records exactly the submitted key as it came, the given frames, the cursor at 0 with the given autoplay, the speed and the size, and leaves every other run alone. |
| Registry.Register | app.py:196-203 | Storing a run records exactly Key(Resolve(key)), the key of the algorithm whose engine runs, which the table holds, together with the given frames, the cursor at 0 with the given autoplay, the speed and the size, and leaves every other run alone. |
| Registry.StartAsWritten | app.py:172-203 | "start" as written: a missing algorithm field means "bubble"; the frames keep the engine contract for the data and open the way the engine of Resolve(key) opens (app.py:192-193); the run stores the submitted key as it came, cursor 0 and the clamped size; other runs are untouched; a well-formed store stays well formed exactly when the key is in the table. |
| Registry.Start | app.py:172-203 | Corrected "start" of the Findings row: as StartAsWritten, with frames that open the way the engine of Resolve(key) opens, but it stores Key(Resolve(key)), the key of that engine ("bubble" for a missing or unknown key), so a well-formed store always stays well formed. |
| Registry.View | app.py:208-217 | With no active run, back to the index with nothing changed. Otherwise the clamped cursor is stored, and the page shows the frame at exactly that clamped index with the algorithm's title and the run's autoplay, speed, key and size; the page is a fault exactly when the log is empty or the key is not in the table. A well-formed store is unchanged and never faults. |
| Registry.AdvanceRun | app.py:234-251 | With no active run, back to the index; otherwise only the run's cursor changes, by the command (default "next"), and well-formedness is kept. |
| Registry.Reset | app.py:254-257 | "reset" removes the session's run if stored and otherwise changes nothing; other runs are untouched. |
| Registry.UnknownKeyFaults | app.py:197-217 | A run stored as written under a key the table does not hold faults on its first view. |
| Registry.HeapsortFaults | app.py:197-217 | The key "heapsort" is such a key. |
| Registry.RegisteredRunShows | app.py:196-217 | A run stored by the corrected registration shows its first frame under the title of the algorithm that ran, bubble sort for an unknown key. |

## Left out

- SelectionSort.ScanMin: states how many frames the whole scan records and what each holds, but the exact order of compare and new-minimum frames only step by step, in SelectionSort.ScanStep.
- Flask routes, templates, redirects and the entry point are not modelled (app.py:166-169, app.py:261-263). A redirect becomes a value of `Registry.Redirect` or `Registry.Page`.
- The session cookie is not modelled. The session is an optional run id passed in. Setting it in "start" and popping it in "reset" are left out (app.py:204, app.py:258).
- Random data generation (app.py:191) is not modelled. The data is a parameter of `Registry.Start` and `Registry.StartAsWritten` whose length is the clamped size. The engines are proved for any integers, not only 5..500.
- The generated run id (app.py:195) is a parameter. No freshness is assumed: storing under a held id replaces the run, as the dict assignment does.
- The speed parse and clamp (app.py:181-186) use floating point. The speed is stored as the given `real` and never changed.
- The `int()` parse fallback for the size (app.py:174-177) is foreign string parsing. The size arrives as an integer.
- Frame notes are descriptive strings and are omitted.
- A missing highlight category and an empty one are not distinguished.
- The order `list(set)` gives to the sorted indices is left out. `sorted` is a set of indices.
- Concurrent requests on the global store are not modelled. The store is a value passed in and returned.
- The engines work on integers. The source compares any orderable values with `<`, `>` and `<=`.
- Algorithms.RunEngine: the opening frames identify the engine only for inputs of at least three elements. On two elements bubble, selection and quick sort all open by comparing (0, 1). A started run always has at least five elements.
- QuickSort.Partition: states at least one frame per scanned element, rather than exactly one compare frame per element plus one swap frame per distinct swap.
- MergeSort.MergeSortRange: states the properties of the range and of every frame, not the exact sequence of frames across the recursion. Merge alone states its frame pattern exactly.

## Findings

| source | as written | input that shows it | evidently intended | confidence | as-written member | corrected member |
|---|---|---|---|---|---|---|
| app.py:197 | "start" (Registry.StartAsWritten) runs bubble sort for an unknown algorithm key, but stores the key as submitted. "view" then indexes the table with it (app.py:217). | a start request with algorithm "heapsort": the next view raises KeyError | store the key of the algorithm that ran, so the view shows "Bubble Sort", as the fallback at app.py:192 intends | high; not executed | Registry.RegisterAsWritten | Registry.Register |

=== FILE: algorithms.dfy ===
/** The table of the five engines, keyed by the name a client submits, with
    the display title of each, and the fallback to bubble sort for a key the
    table does not hold. */
module Algorithms {
  import opened Optional
  import opened Frames
  import BubbleSort
  import SelectionSort
  import InsertionSort
  import MergeSort
  import QuickSort

  datatype Algorithm = Bubble | Selection | Insertion | Merge | Quick

  /** The key under which the table holds the algorithm. */
  function Key(alg: Algorithm): string
  {
    match alg
    case Bubble => "bubble"
    case Selection => "selection"
    case Insertion => "insertion"
    case Merge => "merge"
    case Quick => "quick"
  }

  /** The display title the table pairs with the algorithm. */
  function Title(alg: Algorithm): string
  {
    match alg
    case Bubble => "Bubble Sort"
    case Selection => "Selection Sort"
    case Insertion => "Insertion Sort"
    case Merge => "Merge Sort"
    case Quick => "Quick Sort"
  }

  /** Indexing the table: finds the algorithm stored under k, if any. */
  function Lookup(k: string): (r: Option<Algorithm>)
    ensures r.Some? ==> Key(r.value) == k
    ensures r.None? <==> forall alg: Algorithm :: Key(alg) != k
  {
    if k == "bubble" then Some(Bubble)
    else if k == "selection" then Some(Selection)
    else if k == "insertion" then Some(Insertion)
    else if k == "merge" then Some(Merge)
    else if k == "quick" then Some(Quick)
    else None
  }

  /** The table lookup with bubble sort as the default: the algorithm whose
      key is k, or bubble sort when no key is k. */
  function Resolve(k: string): (alg: Algorithm)
    ensures Key(alg) == k || (alg == Bubble && forall other: Algorithm :: Key(other) != k)
  {
    match Lookup(k)
    case Some(found) => found
    case None => Bubble
  }

  /** Every algorithm is found under its own key, and resolving that key
      gives it back. */
  lemma KeyRoundTrip(alg: Algorithm)
    ensures Lookup(Key(alg)) == Some(alg) && Resolve(Key(alg)) == alg
  {
  }

  /** How the frame log of the algorithm's engine opens on an input of at
      least three elements, after the start frame: bubble and selection sort
      compare the first pair and differ in the next frame; insertion sort
      picks the key at 1; merge sort compares at destination 0; quick sort
      compares 0 with the pivot at the last index. */
  predicate Opening(alg: Algorithm, input: seq<int>, frames: seq<Frame>)
  {
    match alg
    case Bubble => BubbleSort.Opens(input, frames)
    case Selection => SelectionSort.Opens(input, frames)
    case Insertion => |input| >= 2 ==> |frames| >= 2 && frames[1] == Frame(input, Highlights([1], [], {}))
    case Merge => |input| >= 2 ==> |frames| >= 2 && frames[1] == Frame(input, Highlights([0], [], {}))
    case Quick => |input| >= 2 ==> |frames| >= 2 && frames[1] == Frame(input, Highlights([0, |input| - 1], [], {}))
  }

  /** On an input of at least three elements no log opens as two different
      engines' logs do: the opening identifies the engine that produced it. */
  lemma {:induction false} OpeningsDistinct(a1: Algorithm, a2: Algorithm, input: seq<int>, frames: seq<Frame>)
    requires |input| >= 3
    requires Opening(a1, input, frames) && Opening(a2, input, frames)
    ensures a1 == a2
  {
  }

  /** Runs the engine of the algorithm on the input. Every engine keeps the
      common contract; bubble, selection and quick sort also keep every
      frame a permutation of the input, while insertion and merge sort only
      draw every frame's values from it. Every highlight is a valid index
      for a non-empty input. */
  method RunEngine(alg: Algorithm, input: seq<int>) returns (frames: seq<Frame>)
    ensures EngineContract(input, frames)
    ensures DrawnFrom(frames, input)
    ensures alg != Insertion && alg != Merge ==> Permutes(frames, input)
    ensures |input| >= 1 ==> InBounds(frames, |input|) && Last(frames).hl == DoneHighlights(|input|)
    ensures Opening(alg, input, frames)
  {
    match alg
    case Bubble =>
      frames := BubbleSort.BubbleSortFrames(input);
      PermutesDrawn(frames, input);
    case Selection =>
      frames := SelectionSort.SelectionSortFrames(input);
      PermutesDrawn(frames, input);
    case Insertion =>
      frames := InsertionSort.InsertionSortFrames(input);
    case Merge =>
      frames := MergeSort.MergeSortFrames(input);
    case Quick =>
      frames := QuickSort.QuickSortFrames(input);
      PermutesDrawn(frames, input);
  }
}

=== FILE: bubble.dfy ===
/** Bubble sort that records a frame before every comparison, after every
    swap, and after every pass. */
module BubbleSort {
  import opened Frames

  /** After pass i the last i elements are in their final places: they are
      sorted and no earlier element exceeds them. */
  predicate TailFixed(a: seq<int>, bound: int)
    requires 0 <= bound <= |a|
  {
    && SortedRange(a, bound, |a|)
    && (forall p, q :: 0 <= p < bound <= q < |a| ==> a[p] <= a[q])
  }

  /** b[j] is the largest of b[0..j]. */
  predicate MaxAt(b: seq<int>, j: int)
    requires 0 <= j < |b|
  {
    forall k :: 0 <= k < j ==> b[k] <= b[j]
  }

  /** The compare-and-swap on (j, j+1) moves the largest of b[0..j+1] to
      j+1 and leaves the tail from bound on alone. */
  lemma {:induction false} CompareSwap(b: seq<int>, j: int, bound: int)
    requires 0 <= j && j + 1 < bound <= |b|
    requires MaxAt(b, j) && TailFixed(b, bound)
    ensures var b' := if b[j] > b[j + 1] then Swap(b, j, j + 1) else b;
      MaxAt(b', j + 1) && TailFixed(b', bound)
  {
    var b' := if b[j] > b[j + 1] then Swap(b, j, j + 1) else b;
    forall k | 0 <= k < j + 1
      ensures b'[k] <= b'[j + 1]
    {
      if k < j {
        assert b'[k] == b[k] && b[k] <= b[j];
      }
    }
    forall p, q | 0 <= p < bound <= q < |b|
      ensures b'[p] <= b'[q]
    {
      assert b'[q] == b[q];
      if p == j || p == j + 1 {
        assert b[j] <= b[q] && b[j + 1] <= b[q];
      } else {
        assert b'[p] == b[p];
      }
    }
    assert forall p, q :: bound <= p < q < |b| ==> b'[p] == b[p] && b'[q] == b[q];
  }

  /** One step of the inner loop: a compare frame on (j, j+1), then, when
      the pair is out of order, the swap and a swap frame on it. */
  method BubbleStep(a: seq<int>, bound: int, tail: set<int>, j: int, b: seq<int>, emitted: seq<Frame>)
    returns (b': seq<int>, emitted': seq<Frame>)
    requires 0 <= j && j + 1 < bound <= |a| == |b|
    requires forall x :: x in tail ==> 0 <= x < |a|
    requires multiset(b) == multiset(a) && MaxAt(b, j) && TailFixed(b, bound)
    requires Sized(emitted, |a|) && InBounds(emitted, |a|) && Permutes(emitted, a)
    ensures b' == if b[j] > b[j + 1] then Swap(b, j, j + 1) else b
    ensures emitted' == emitted + [Frame(b, Highlights([j, j + 1], [], tail))]
      + (if b[j] > b[j + 1] then [Frame(b', Highlights([], [j, j + 1], tail))] else [])
    ensures |b'| == |a| && multiset(b') == multiset(a) && MaxAt(b', j + 1) && TailFixed(b', bound)
    ensures Sized(emitted', |a|) && InBounds(emitted', |a|) && Permutes(emitted', a)
  {
    CompareSwap(b, j, bound);
    emitted' := Snapshot(emitted, b, Highlights([j, j + 1], [], tail));
    b' := b;
    if b[j] > b[j + 1] {
      b' := Swap(b, j, j + 1);
      emitted' := Snapshot(emitted', b', Highlights([], [j, j + 1], tail));
    }
  }

  /** The marks of the second frame of a pass over a with at least three
      elements: the swap of the first pair when it is out of order, and
      otherwise the comparison of the second pair. */
  function SecondMarks(a: seq<int>, tail: set<int>): Highlights
    requires |a| >= 2
  {
    if a[0] > a[1] then Highlights([], [0, 1], tail) else Highlights([1, 2], [], tail)
  }

  /** How a bubble sort of at least three elements opens: after the start
      frame, the comparison of the first pair, then either its swap or the
      comparison of the second pair. */
  predicate Opens(input: seq<int>, frames: seq<Frame>)
  {
    |input| >= 3 ==>
      && |frames| >= 3
      && frames[1] == Frame(input, Highlights([0, 1], [], {}))
      && frames[2].hl == SecondMarks(input, {})
  }

  /** The log after the first pass and its closing frame opens as a bubble
      sort does. */
  lemma OpensFirstPass(input: seq<int>, before: seq<Frame>, pass: seq<Frame>, after: seq<Frame>)
    requires |before| == 1
    requires |input| >= 3 ==>
      |pass| >= 2 && pass[0] == Frame(input, Highlights([0, 1], [], {})) && pass[1].hl == SecondMarks(input, {})
    requires |after| >= |before| + |pass| && after[..|before| + |pass|] == before + pass
    ensures Opens(input, after)
  {
    if |input| >= 3 {
      assert after[1] == (before + pass)[1];
      assert after[2] == (before + pass)[2];
    }
  }

  /** Appending frames keeps how the log opens. */
  lemma OpensKept(input: seq<int>, before: seq<Frame>, after: seq<Frame>)
    requires Opens(input, before) && (|input| >= 3 ==> |after| >= |before| && after[..|before|] == before)
    ensures Opens(input, after)
  {
    if |input| >= 3 {
      assert after[1] == before[1] && after[2] == before[2];
    }
  }

  /** One pass of the inner loop over the pairs (j, j+1) with j < bound - 1:
      carries the maximum of a[..bound] to position bound - 1 and leaves
      the tail alone. Frames name only indices below bound. */
  method BubblePass(a: seq<int>, bound: int, tail: set<int>) returns (b: seq<int>, emitted: seq<Frame>)
    requires 1 <= bound <= |a|
    requires TailFixed(a, bound)
    requires forall x :: x in tail ==> 0 <= x < |a|
    ensures |b| == |a| && multiset(b) == multiset(a)
    ensures TailFixed(b, bound - 1)
    ensures Sized(emitted, |a|) && InBounds(emitted, |a|) && Permutes(emitted, a)
    ensures bound >= 2 ==> |emitted| >= 1 && emitted[0] == Frame(a, Highlights([0, 1], [], tail))
    ensures bound >= 3 ==> |emitted| >= 2 && emitted[1].hl == SecondMarks(a, tail)
  {
    b := a;
    emitted := [];
    var j := 0;
    while j < bound - 1
      invariant 0 <= j <= bound - 1
      invariant |b| == |a| && multiset(b) == multiset(a)
      invariant MaxAt(b, j) && TailFixed(b, bound)
      invariant Sized(emitted, |a|) && InBounds(emitted, |a|) && Permutes(emitted, a)
      invariant j == 0 ==> b == a && emitted == []
      invariant j >= 1 ==> |emitted| >= 1 && emitted[0] == Frame(a, Highlights([0, 1], [], tail))
      invariant j == 1 ==> (|emitted| == 1 <==> a[0] <= a[1])
      invariant j >= 1 && a[0] > a[1] ==> |emitted| >= 2 && emitted[1].hl == SecondMarks(a, tail)
      invariant j >= 2 ==> |emitted| >= 2 && emitted[1].hl == SecondMarks(a, tail)
    {
      b, emitted := BubbleStep(a, bound, tail, j, b, emitted);
      j := j + 1;
    }
    forall p, q | 0 <= p < bound - 1 <= q < |b|
      ensures b[p] <= b[q]
    {
      if q >= bound {
        assert b[bound - 1] <= b[q];
      }
    }
  }

  /** One iteration of the outer loop: a pass over the unfixed prefix, then
      the frame that fixes position n - i - 1. */
  method PassAndFix(input: seq<int>, i: int, a: seq<int>, tail: set<int>, frames: seq<Frame>)
    returns (a': seq<int>, tail': set<int>, frames': seq<Frame>)
    requires 0 <= i < |input| - 1
    requires |a| == |input| && multiset(a) == multiset(input)
    requires tail == RangeSet(|input| - i, |input|) && TailFixed(a, |input| - i)
    requires |frames| >= 1 && frames[0] == Frame(input, NoHighlights)
    requires Sized(frames, |input|) && InBounds(frames, |input|) && Permutes(frames, input)
    requires i == 0 ==> a == input && |frames| == 1
    requires i >= 1 ==> Opens(input, frames)
    ensures |a'| == |input| && multiset(a') == multiset(input)
    ensures tail' == RangeSet(|input| - i - 1, |input|) && TailFixed(a', |input| - i - 1)
    ensures |frames'| > |frames| && frames'[..|frames|] == frames
    ensures Last(frames') == Frame(a', Highlights([], [], tail'))
    ensures |frames'| >= 1 && frames'[0] == Frame(input, NoHighlights)
    ensures Sized(frames', |input|) && InBounds(frames', |input|) && Permutes(frames', input)
    ensures Opens(input, frames')
  {
    var n := |input|;
    var pass;
    assert i == 0 ==> tail == {};
    a', pass := BubblePass(a, n - i, tail);
    SizedConcat(frames, pass, n);
    InBoundsConcat(frames, pass, n);
    PermutesConcat(frames, pass, input);
    RangeSetSplit(n - i - 1, n);
    tail' := tail + {n - i - 1};
    frames' := Snapshot(frames + pass, a', Highlights([], [], tail'));
    assert frames'[..|frames|] == frames;
    if i == 0 {
      OpensFirstPass(input, frames, pass, frames');
    } else {
      OpensKept(input, frames, frames');
    }
  }

  method BubbleSortFrames(input: seq<int>) returns (frames: seq<Frame>)
    ensures EngineContract(input, frames)
    ensures Last(frames).hl == DoneHighlights(|input|)
    ensures InBounds(frames, |input|)
    ensures Permutes(frames, input)
    ensures Opens(input, frames)
  {
    var a := input;
    var n := |a|;
    var tail: set<int> := {};
    frames := Snapshot([], a, Highlights([], [], tail));
    var i := 0;
    while i < n - 1
      invariant 0 <= i <= n && (n == 0 || i <= n - 1)
      invariant |a| == n && multiset(a) == multiset(input)
      invariant tail == RangeSet(n - i, n)
      invariant TailFixed(a, n - i)
      invariant |frames| >= 1 && frames[0] == Frame(input, NoHighlights)
      invariant Sized(frames, n) && InBounds(frames, n) && Permutes(frames, input)
      invariant n <= 1 ==> |frames| == 1
      invariant i == 0 ==> a == input && |frames| == 1
      invariant i >= 1 ==> Opens(input, frames)
    {
      a, tail, frames := PassAndFix(input, i, a, tail, frames);
      i := i + 1;
    }
    ghost var before := frames;
    frames := Snapshot(frames, a, DoneHighlights(n));
    if n >= 3 {
      OpensKept(input, before, frames);
    }
  }
}

=== FILE: frames.dfy ===
/** Frames recorded by the sort engines, and the vocabulary used to state what
    a frame log promises: sortedness, permutation, array length and index
    bounds. */
module Frames {

  /** The highlight map of a frame. `compare` and `swap` keep the order in
      which the engine listed the indices; `sorted` is a set of indices. An
      absent category is the empty sequence or set. */
  datatype Highlights = Highlights(compare: seq<int>, swap: seq<int>, sorted: set<int>)

  /** One recorded step: a copy of the working array and its highlights. */
  datatype Frame = Frame(arr: seq<int>, hl: Highlights)

  const NoHighlights: Highlights := Highlights([], [], {})

  /** The set of indices lo..hi-1. */
  function RangeSet(lo: int, hi: int): (r: set<int>)
    ensures forall x :: x in r <==> lo <= x < hi
    decreases hi - lo
  {
    if hi <= lo then {} else RangeSet(lo, hi - 1) + {hi - 1}
  }

  /** Highlights of a "Done" frame over n elements: every index tagged sorted. */
  function DoneHighlights(n: int): Highlights
  {
    Highlights([], [], RangeSet(0, n))
  }

  /** snapshot: records a frame holding the array and highlights by value.
      The log grows by exactly that one frame and earlier frames are
      untouched, so every property of the log that holds frame by frame
      (array length, index bounds, permutation of or values drawn from an
      input) carries over when the new frame has it too. */
  function Snapshot(log: seq<Frame>, arr: seq<int>, hl: Highlights): (log': seq<Frame>)
    ensures |log'| == |log| + 1 && log'[..|log|] == log && log'[|log|] == Frame(arr, hl)
    ensures forall n :: Sized(log, n) && |arr| == n ==> Sized(log', n)
    ensures forall n :: InBounds(log, n) && IndicesBelow(hl, n) ==> InBounds(log', n)
    ensures forall s :: Permutes(log, s) && multiset(arr) == multiset(s) ==> Permutes(log', s)
    ensures forall s :: DrawnFrom(log, s) && Within(arr, s) ==> DrawnFrom(log', s)
  {
    log + [Frame(arr, hl)]
  }

  function Last(log: seq<Frame>): Frame
    requires |log| > 0
  {
    log[|log| - 1]
  }

  predicate Sorted(s: seq<int>)
  {
    forall p, q :: 0 <= p < q < |s| ==> s[p] <= s[q]
  }

  predicate SortedRange(s: seq<int>, lo: int, hi: int)
    requires 0 <= lo <= hi <= |s|
  {
    forall p, q :: lo <= p < q < hi ==> s[p] <= s[q]
  }

  /** b agrees with a outside the index range lo..hi-1. */
  predicate SameOutside(b: seq<int>, a: seq<int>, lo: int, hi: int)
  {
    |b| == |a| && forall p :: 0 <= p < |a| && (p < lo || hi <= p) ==> b[p] == a[p]
  }

  /** Exchanges s[i] and s[j]; the contents are a permutation of s. */
  function Swap(s: seq<int>, i: int, j: int): (r: seq<int>)
    requires 0 <= i < |s| && 0 <= j < |s|
    ensures |r| == |s|
    ensures r[i] == s[j] && r[j] == s[i]
    ensures forall k :: 0 <= k < |s| && k != i && k != j ==> r[k] == s[k]
    ensures multiset(r) == multiset(s)
  {
    s[i := s[j]][j := s[i]]
  }

  /** Every index named by the highlights lies in [0, n). */
  predicate IndicesBelow(hl: Highlights, n: int)
  {
    && (forall k :: 0 <= k < |hl.compare| ==> 0 <= hl.compare[k] < n)
    && (forall k :: 0 <= k < |hl.swap| ==> 0 <= hl.swap[k] < n)
    && (forall x :: x in hl.sorted ==> 0 <= x < n)
  }

  /** Every frame array of the log has length n. */
  predicate Sized(log: seq<Frame>, n: int)
  {
    forall t :: 0 <= t < |log| ==> |log[t].arr| == n
  }

  /** Every highlight index of every frame of the log lies in [0, n). */
  predicate InBounds(log: seq<Frame>, n: int)
  {
    forall t :: 0 <= t < |log| ==> IndicesBelow(log[t].hl, n)
  }

  /** Every frame array of the log is a permutation of s. */
  predicate Permutes(log: seq<Frame>, s: seq<int>)
  {
    forall t :: 0 <= t < |log| ==> multiset(log[t].arr) == multiset(s)
  }

  /** The set of values a sequence holds. */
  function Values(s: seq<int>): set<int>
  {
    set x | x in s
  }

  /** Every value of arr occurs in s. */
  predicate Within(arr: seq<int>, s: seq<int>)
  {
    Values(arr) <= Values(s)
  }

  /** Every value of every frame array of the log occurs in s (a weaker
      promise than Permutes, for engines that duplicate or overwrite values
      between two frames). */
  predicate DrawnFrom(log: seq<Frame>, s: seq<int>)
  {
    forall t :: 0 <= t < |log| ==> Within(log[t].arr, s)
  }

  /** A swap mark names either one index or two distinct indices. */
  predicate DistinctSwap(hl: Highlights)
  {
    |hl.swap| == 0 || |hl.swap| == 1 || (|hl.swap| == 2 && hl.swap[0] != hl.swap[1])
  }

  /** What every engine promises about the log it returns for input s: at
      least a start and a done frame; the start frame is the input with no
      highlights; the done frame holds the input sorted ascending, as a
      permutation, with no compare or swap marks; every frame array has the
      input's length; every frame but the last names only valid indices; an
      input of at most one element yields exactly the two frames. */
  predicate EngineContract(s: seq<int>, frames: seq<Frame>)
  {
    && |frames| >= 2
    && frames[0] == Frame(s, NoHighlights)
    && Sorted(Last(frames).arr)
    && multiset(Last(frames).arr) == multiset(s)
    && Last(frames).hl.compare == [] && Last(frames).hl.swap == []
    && Sized(frames, |s|)
    && InBounds(frames[..|frames| - 1], |s|)
    && (|s| <= 1 ==> |frames| == 2)
  }

  lemma SizedConcat(l1: seq<Frame>, l2: seq<Frame>, n: int)
    requires Sized(l1, n) && Sized(l2, n)
    ensures Sized(l1 + l2, n)
  {
    forall t | 0 <= t < |l1 + l2|
      ensures |(l1 + l2)[t].arr| == n
    {
      if t >= |l1| {
        assert (l1 + l2)[t] == l2[t - |l1|];
      }
    }
  }

  lemma InBoundsConcat(l1: seq<Frame>, l2: seq<Frame>, n: int)
    requires InBounds(l1, n) && InBounds(l2, n)
    ensures InBounds(l1 + l2, n)
  {
    forall t | 0 <= t < |l1 + l2|
      ensures IndicesBelow((l1 + l2)[t].hl, n)
    {
      if t >= |l1| {
        assert (l1 + l2)[t] == l2[t - |l1|];
      }
    }
  }

  lemma PermutesConcat(l1: seq<Frame>, l2: seq<Frame>, s: seq<int>)
    requires Permutes(l1, s) && Permutes(l2, s)
    ensures Permutes(l1 + l2, s)
  {
    forall t | 0 <= t < |l1 + l2|
      ensures multiset((l1 + l2)[t].arr) == multiset(s)
    {
      if t >= |l1| {
        assert (l1 + l2)[t] == l2[t - |l1|];
      }
    }
  }

  /** Appending a non-empty log whose frames are permutations of s2 to one
      over s, where s2 and s hold the same values, keeps the earlier frames,
      ends with the appended log's last frame, and keeps every frame
      property. */
  lemma AppendLog(l1: seq<Frame>, l2: seq<Frame>, s: seq<int>, s2: seq<int>)
    requires |l2| >= 1 && |s2| == |s| && multiset(s2) == multiset(s)
    requires Sized(l1, |s|) && InBounds(l1, |s|) && Permutes(l1, s)
    requires Sized(l2, |s|) && InBounds(l2, |s|) && Permutes(l2, s2)
    ensures (l1 + l2)[..|l1|] == l1 && Last(l1 + l2) == Last(l2)
    ensures Sized(l1 + l2, |s|) && InBounds(l1 + l2, |s|) && Permutes(l1 + l2, s)
  {
    SizedConcat(l1, l2, |s|);
    InBoundsConcat(l1, l2, |s|);
    PermutesConcat(l1, l2, s);
    assert (l1 + l2)[..|l1|] == l1;
  }

  lemma DrawnFromConcat(l1: seq<Frame>, l2: seq<Frame>, s: seq<int>)
    requires DrawnFrom(l1, s) && DrawnFrom(l2, s)
    ensures DrawnFrom(l1 + l2, s)
  {
    forall t | 0 <= t < |l1 + l2|
      ensures Within((l1 + l2)[t].arr, s)
    {
      if t >= |l1| {
        assert (l1 + l2)[t] == l2[t - |l1|];
      }
    }
  }

  /** Overwriting one element with a value of s keeps the array within s. */
  lemma WithinUpdate(b: seq<int>, k: int, v: int, s: seq<int>)
    requires 0 <= k < |b| && Within(b, s) && v in s
    ensures Within(b[k := v], s)
  {
    forall x | x in Values(b[k := v])
      ensures x in Values(s)
    {
      var p :| 0 <= p < |b| && b[k := v][p] == x;
      if p != k {
        assert b[p] in Values(b);
      }
    }
  }

  lemma DrawnFromTrans(log: seq<Frame>, b: seq<int>, s: seq<int>)
    requires DrawnFrom(log, b) && Within(b, s)
    ensures DrawnFrom(log, s)
  {
  }

  /** A permutation of s is within s. */
  lemma PermutationWithin(b: seq<int>, s: seq<int>)
    requires multiset(b) == multiset(s)
    ensures Within(b, s)
  {
    forall x | x in Values(b)
      ensures x in Values(s)
    {
      assert x in multiset(b);
    }
  }

  /** Short index lists (one or two entries) below n: a quantifier-free way
      to establish IndicesBelow for the compare and swap marks the engines
      record. */
  predicate ShortBelow(ix: seq<int>, n: int)
  {
    && |ix| <= 2
    && (|ix| >= 1 ==> 0 <= ix[0] < n)
    && (|ix| == 2 ==> 0 <= ix[1] < n)
  }

  /** Short marks below n and no sorted tags name only indices below n. */
  lemma ShortMarksBelow(compare: seq<int>, swap: seq<int>, n: int)
    requires ShortBelow(compare, n) && ShortBelow(swap, n)
    ensures IndicesBelow(Highlights(compare, swap, {}), n)
  {
  }

  lemma RangeSetSplit(lo: int, hi: int)
    requires lo <= hi
    ensures RangeSet(lo, hi + 1) == RangeSet(lo, hi) + {hi}
  {
  }

  /** A permutation of the range lo..hi-1 that leaves the rest alone is a
      permutation of the whole array. */
  lemma RangePermutes(a: seq<int>, b: seq<int>, lo: int, hi: int)
    requires 0 <= lo <= hi <= |a|
    requires SameOutside(b, a, lo, hi) && multiset(b[lo..hi]) == multiset(a[lo..hi])
    ensures multiset(b) == multiset(a)
  {
    ThreeParts(a, lo, hi);
    ThreeParts(b, lo, hi);
    assert b[..lo] == a[..lo] && b[hi..] == a[hi..];
  }

  /** A sorted range survives changes made beyond its end. */
  lemma SortedKept(a: seq<int>, b: seq<int>, lo: int, hi: int, lo2: int, hi2: int)
    requires 0 <= lo <= hi <= lo2 && hi <= |a|
    requires SortedRange(a, lo, hi) && SameOutside(b, a, lo2, hi2)
    ensures SortedRange(b, lo, hi)
  {
    forall p, q | lo <= p < q < hi
      ensures b[p] <= b[q]
    {
      assert b[p] == a[p] && b[q] == a[q];
    }
  }

  /** The multiset of an array is that of its three parts around lo..hi-1. */
  lemma ThreeParts(a: seq<int>, lo: int, hi: int)
    requires 0 <= lo <= hi <= |a|
    ensures multiset(a) == multiset(a[lo..hi]) + (multiset(a[..lo]) + multiset(a[hi..]))
  {
    assert a == a[..lo] + a[lo..hi] + a[hi..];
  }

  lemma Cancel(m: multiset<int>, n: multiset<int>, o: multiset<int>)
    requires m + o == n + o
    ensures m == n
  {
    forall x
      ensures m[x] == n[x]
    {
      assert (m + o)[x] == (n + o)[x];
    }
  }

  /** A whole-array permutation that leaves everything outside lo..hi-1
      alone permutes the range lo..hi-1. */
  lemma RangeFromWhole(a: seq<int>, b: seq<int>, lo: int, hi: int)
    requires 0 <= lo <= hi <= |a|
    requires SameOutside(b, a, lo, hi) && multiset(b) == multiset(a)
    ensures multiset(b[lo..hi]) == multiset(a[lo..hi])
  {
    ThreeParts(a, lo, hi);
    ThreeParts(b, lo, hi);
    assert b[..lo] == a[..lo] && b[hi..] == a[hi..];
    Cancel(multiset(b[lo..hi]), multiset(a[lo..hi]), multiset(a[..lo]) + multiset(a[hi..]));
  }

  /** A log of permutations of s draws its values from s. */
  lemma PermutesDrawn(log: seq<Frame>, s: seq<int>)
    requires Permutes(log, s)
    ensures DrawnFrom(log, s)
  {
    forall t | 0 <= t < |log|
      ensures Within(log[t].arr, s)
    {
      PermutationWithin(log[t].arr, s);
    }
  }
}

=== FILE: insertion.dfy ===
/** Insertion sort that records a frame when a key is picked, after every
    shift, and after the key is placed. A shift copies a value one place to
    the right before the key is written back, so the frames in between hold
    a duplicated value: they draw their values from the input but are not
    permutations of it. */
module InsertionSort {
  import opened Frames

  /** While the key a[i] is held aside with a hole at j+1: the part left of
      the hole and the part right of it (up to i) are sorted, the left part
      does not exceed the right part, and the right part exceeds the key. */
  predicate Shifting(b: seq<int>, j: int, i: int, key: int)
    requires -1 <= j < i < |b|
  {
    && SortedRange(b, 0, j + 1) && SortedRange(b, j + 2, i + 1)
    && (forall p, q :: 0 <= p <= j && j + 2 <= q <= i ==> b[p] <= b[q])
    && (forall q :: j + 2 <= q <= i ==> b[q] > key)
  }

  lemma {:induction false} ShiftRight(b: seq<int>, j: int, i: int, key: int)
    requires 0 <= j < i < |b|
    requires Shifting(b, j, i, key) && b[j] > key
    ensures Shifting(b[j + 1 := b[j]], j - 1, i, key)
  {
    var c := b[j + 1 := b[j]];
    forall p, q | j + 1 <= p < q < i + 1
      ensures c[p] <= c[q]
    {
      if p == j + 1 {
        assert c[p] == b[j];
      }
    }
  }

  lemma {:induction false} PlaceKey(b: seq<int>, j: int, i: int, key: int)
    requires -1 <= j < i < |b|
    requires Shifting(b, j, i, key)
    requires j < 0 || b[j] <= key
    ensures SortedRange(b[j + 1 := key], 0, i + 1)
  {
    var c := b[j + 1 := key];
    forall p, q | 0 <= p < q < i + 1
      ensures c[p] <= c[q]
    {
      if q == j + 1 {
        assert b[p] <= b[j];
      }
    }
  }

  /** Shifting b[j] into the hole at j+1 moves the hole to j without
      changing which values the array holds once the key fills the hole. */
  lemma MoveHole(b: seq<int>, j: int, key: int)
    requires 0 <= j && j + 1 < |b|
    ensures multiset(b[j + 1 := b[j]][j := key]) == multiset(b[j + 1 := key])
  {
    assert b[j + 1 := b[j]][j := key] == Swap(b[j + 1 := key], j, j + 1);
  }

  /** With the key as the only value missing from the hole, and the hole
      holding a copy of a value of s, every value of b occurs in s. */
  lemma HoleWithin(b: seq<int>, h: int, key: int, s: seq<int>)
    requires 0 <= h < |b|
    requires multiset(b[h := key]) == multiset(s) && b[h] in multiset(s)
    ensures Within(b, s)
  {
    forall k | 0 <= k < |b|
      ensures b[k] in multiset(s)
    {
      if k != h {
        assert b[k] == b[h := key][k];
        assert b[h := key][k] in multiset(b[h := key]);
      }
    }
  }

  /** The state of the shift loop for the key a[i] with the hole at j+1:
      filling the hole with the key gives a permutation of a, the hole holds
      a copy of a value of a, nothing past i has changed, and the frames
      recorded so far start with the key frame and draw their values from
      a. */
  predicate ShiftState(a: seq<int>, i: int, key: int, b: seq<int>, j: int, emitted: seq<Frame>)
  {
    && 1 <= i < |a| && -1 <= j <= i - 1 && |b| == |a|
    && b[i + 1..] == a[i + 1..]
    && multiset(b[j + 1 := key]) == multiset(a)
    && b[j + 1] in multiset(a)
    && Shifting(b, j, i, key)
    && Sized(emitted, |a|) && InBounds(emitted, |a|) && DrawnFrom(emitted, a)
    && |emitted| >= 1 && emitted[0] == Frame(a, Highlights([i], [], {}))
  }

  /** One shift: a[j+1] := a[j], recorded as a swap frame on (j, j+1). */
  method ShiftOnce(a: seq<int>, i: int, key: int, b: seq<int>, j: int, emitted: seq<Frame>)
    returns (b': seq<int>, emitted': seq<Frame>)
    requires ShiftState(a, i, key, b, j, emitted)
    requires j >= 0 && b[j] > key
    ensures b' == b[j + 1 := b[j]]
    ensures emitted' == emitted + [Frame(b', Highlights([], [j, j + 1], {}))]
    ensures ShiftState(a, i, key, b', j - 1, emitted')
  {
    MoveHole(b, j, key);
    ShiftRight(b, j, i, key);
    assert b[j] == b[j + 1 := key][j];
    b' := b[j + 1 := b[j]];
    HoleWithin(b', j + 1, key, a);
    ShortMarksBelow([], [j, j + 1], |a|);
    emitted' := Snapshot(emitted, b', Highlights([], [j, j + 1], {}));
  }

  /** Writes the key into the hole, recorded as a swap frame on j+1. */
  method FillHole(a: seq<int>, i: int, key: int, b: seq<int>, j: int, emitted: seq<Frame>)
    returns (b': seq<int>, emitted': seq<Frame>)
    requires ShiftState(a, i, key, b, j, emitted)
    requires j < 0 || b[j] <= key
    ensures b' == b[j + 1 := key]
    ensures emitted' == emitted + [Frame(b', Highlights([], [j + 1], {}))]
    ensures b'[i + 1..] == a[i + 1..]
    ensures |b'| == |a| && multiset(b') == multiset(a)
    ensures SortedRange(b', 0, i + 1)
    ensures Sized(emitted', |a|) && InBounds(emitted', |a|) && DrawnFrom(emitted', a)
    ensures |emitted'| == |emitted| + 1 && emitted'[0] == emitted[0]
  {
    PlaceKey(b, j, i, key);
    b' := b[j + 1 := key];
    HoleWithin(b', j + 1, key, a);
    ShortMarksBelow([], [j + 1], |a|);
    emitted' := Snapshot(emitted, b', Highlights([], [j + 1], {}));
  }

  /** The shift loop: moves the hole left past every element that exceeds
      the key. */
  method ShiftAll(a: seq<int>, i: int, key: int) returns (b: seq<int>, j: int, emitted: seq<Frame>)
    requires ShiftState(a, i, key, a, i - 1, [Frame(a, Highlights([i], [], {}))])
    ensures ShiftState(a, i, key, b, j, emitted) && (j < 0 || b[j] <= key)
  {
    j := i - 1;
    b := a;
    emitted := Snapshot([], a, Highlights([i], [], {}));
    while j >= 0 && b[j] > key
      invariant ShiftState(a, i, key, b, j, emitted)
      decreases j
    {
      b, emitted := ShiftOnce(a, i, key, b, j, emitted);
      j := j - 1;
    }
  }

  /** The shift loop for the key a[i]: moves every element of the sorted
      prefix a[..i] that exceeds the key one place right, then writes the key
      into the hole. The prefix a[..i+1] ends sorted; the result is a
      permutation of a. */
  method InsertKey(a: seq<int>, i: int) returns (b: seq<int>, emitted: seq<Frame>)
    requires 1 <= i < |a|
    requires SortedRange(a, 0, i)
    ensures |b| == |a| && multiset(b) == multiset(a) && b[i + 1..] == a[i + 1..]
    ensures SortedRange(b, 0, i + 1)
    ensures Sized(emitted, |a|) && InBounds(emitted, |a|) && DrawnFrom(emitted, a)
    ensures |emitted| >= 2 && emitted[0] == Frame(a, Highlights([i], [], {}))
  {
    var key := a[i];
    assert a[i := key] == a;
    var j;
    b, j, emitted := ShiftAll(a, i, key);
    b, emitted := FillHole(a, i, key, b, j, emitted);
  }

  method InsertionSortFrames(input: seq<int>) returns (frames: seq<Frame>)
    ensures EngineContract(input, frames)
    ensures Last(frames).hl == DoneHighlights(|input|)
    ensures InBounds(frames, |input|)
    ensures DrawnFrom(frames, input)
    ensures |input| >= 2 ==> frames[1] == Frame(input, Highlights([1], [], {}))
  {
    var a := input;
    var n := |a|;
    frames := Snapshot([], a, NoHighlights);
    var i := 1;
    while i < n
      invariant 1 <= i && (n == 0 || i <= n)
      invariant |a| == n && multiset(a) == multiset(input)
      invariant n > 0 ==> SortedRange(a, 0, i)
      invariant |frames| >= 1 && frames[0] == Frame(input, NoHighlights)
      invariant Sized(frames, n) && InBounds(frames, n) && DrawnFrom(frames, input)
      invariant n <= 1 ==> |frames| == 1
      invariant i == 1 ==> a == input && |frames| == 1
      invariant i >= 2 ==> |frames| >= 2 && frames[1] == Frame(input, Highlights([1], [], {}))
    {
      var pass;
      var prev := a;
      a, pass := InsertKey(a, i);
      SizedConcat(frames, pass, n);
      InBoundsConcat(frames, pass, n);
      PermutationWithin(prev, input);
      DrawnFromTrans(pass, prev, input);
      DrawnFromConcat(frames, pass, input);
      frames := frames + pass;
      i := i + 1;
    }
    PermutationWithin(a, input);
    frames := Snapshot(frames, a, DoneHighlights(n));
  }
}

=== FILE: merge.dfy ===
/** Top-down merge sort. The merge step copies the two halves, then records
    a compare frame on the destination index before every comparison and a
    swap frame on it after every write, and finally marks the merged range
    sorted. A write overwrites a value still held in the copied halves, so
    intermediate frames draw their values from the input without being
    permutations of it. */
module MergeSort {
  import opened Frames

  /** The reference merge: repeatedly takes the smaller head, the left one on
      ties. */
  function MergeSeq(x: seq<int>, y: seq<int>): (r: seq<int>)
    ensures |r| == |x| + |y|
    ensures |r| > 0 ==> (|x| > 0 && r[0] == x[0]) || (|y| > 0 && r[0] == y[0])
    decreases |x| + |y|
  {
    if |x| == 0 then y
    else if |y| == 0 then x
    else if x[0] <= y[0] then [x[0]] + MergeSeq(x[1..], y)
    else [y[0]] + MergeSeq(x, y[1..])
  }

  /** A non-empty sequence is its head followed by its tail. */
  lemma HeadTail(x: seq<int>)
    requires |x| > 0
    ensures multiset(x) == multiset{x[0]} + multiset(x[1..])
  {
    assert x == [x[0]] + x[1..];
  }

  /** The reference merge is a permutation of its two inputs. */
  lemma {:induction false} MergeSeqPermutes(x: seq<int>, y: seq<int>)
    ensures multiset(MergeSeq(x, y)) == multiset(x) + multiset(y)
    decreases |x| + |y|
  {
    if |x| > 0 && |y| > 0 {
      var r := MergeSeq(x, y);
      HeadTail(r);
      if x[0] <= y[0] {
        assert r[1..] == MergeSeq(x[1..], y);
        MergeSeqPermutes(x[1..], y);
        HeadTail(x);
      } else {
        assert r[1..] == MergeSeq(x, y[1..]);
        MergeSeqPermutes(x, y[1..]);
        HeadTail(y);
      }
    }
  }

  /** A sorted sequence with a smaller element in front is sorted. */
  lemma {:induction false} SortedCons(v: int, r: seq<int>)
    requires Sorted(r) && (|r| > 0 ==> v <= r[0])
    ensures Sorted([v] + r)
  {
    var r' := [v] + r;
    forall p, q | 0 <= p < q < |r'|
      ensures r'[p] <= r'[q]
    {
      if p == 0 {
        assert r'[q] == r[q - 1] && r[0] <= r[q - 1];
      } else {
        assert r'[p] == r[p - 1] && r'[q] == r[q - 1];
      }
    }
  }

  /** The reference merge of two sorted sequences is sorted. */
  lemma {:induction false} MergeSeqSorted(x: seq<int>, y: seq<int>)
    requires Sorted(x) && Sorted(y)
    ensures Sorted(MergeSeq(x, y))
    decreases |x| + |y|
  {
    if |x| > 0 && |y| > 0 {
      if x[0] <= y[0] {
        var rest := MergeSeq(x[1..], y);
        assert Sorted(x[1..]) by {
          forall p, q | 0 <= p < q < |x[1..]|
            ensures x[1..][p] <= x[1..][q]
          {
            assert x[1..][p] == x[p + 1] && x[1..][q] == x[q + 1];
          }
        }
        MergeSeqSorted(x[1..], y);
        if |x| > 1 {
          assert x[1..][0] == x[1] && x[0] <= x[1];
        }
        SortedCons(x[0], rest);
      } else {
        var rest := MergeSeq(x, y[1..]);
        assert Sorted(y[1..]) by {
          forall p, q | 0 <= p < q < |y[1..]|
            ensures y[1..][p] <= y[1..][q]
          {
            assert y[1..][p] == y[p + 1] && y[1..][q] == y[q + 1];
          }
        }
        MergeSeqSorted(x, y[1..]);
        if |y| > 1 {
          assert y[1..][0] == y[1] && y[0] <= y[1];
        }
        SortedCons(y[0], rest);
      }
    }
  }

  /** Progress of the merge: after i elements of `left` and j of `right`
      were written out as w, w followed by the merge of what remains is the
      whole reference merge. */
  predicate Merging(left: seq<int>, right: seq<int>, i: int, j: int, w: seq<int>)
  {
    && 0 <= i <= |left| && 0 <= j <= |right| && |w| == i + j
    && MergeSeq(left, right) == w + MergeSeq(left[i..], right[j..])
  }

  /** The next element of the merge is left[i] when it is no larger than
      the head of right, or right is used up. */
  lemma StepLeft(left: seq<int>, right: seq<int>, i: int, j: int, w: seq<int>)
    requires Merging(left, right, i, j, w) && i < |left|
    requires j < |right| ==> left[i] <= right[j]
    ensures Merging(left, right, i + 1, j, w + [left[i]])
  {
    assert left[i..][1..] == left[i + 1..];
    assert left[i..] == [left[i]] + left[i + 1..];
  }

  /** The next element of the merge is right[j] when it is smaller than the
      head of left, or left is used up. */
  lemma StepRight(left: seq<int>, right: seq<int>, i: int, j: int, w: seq<int>)
    requires Merging(left, right, i, j, w) && j < |right|
    requires i < |left| ==> right[j] < left[i]
    ensures Merging(left, right, i, j + 1, w + [right[j]])
  {
    assert right[j..][1..] == right[j + 1..];
    assert right[j..] == [right[j]] + right[j + 1..];
  }

  /** The marks of frame t of a merge that made c comparisons: while both
      copies have elements the frames alternate between a compare mark and a
      swap (write) mark on the same destination, l, l, l+1, l+1, ...; after
      the c-th write only swap marks follow, on the remaining destinations
      in order. */
  function MergeMarks(l: int, c: int, t: int): (hl: Highlights)
    requires 0 <= t
    ensures hl.sorted == {} && |hl.compare| + |hl.swap| == 1
    ensures t < 2 * c && t % 2 == 0 ==> hl.compare == [l + t / 2]
    ensures t < 2 * c && t % 2 == 1 ==> hl.swap == [l + t / 2]
    ensures t >= 2 * c ==> hl.swap == [l + t - c]
  {
    if t < 2 * c then
      if t % 2 == 0 then Highlights([l + t / 2], [], {}) else Highlights([], [l + t / 2], {})
    else Highlights([], [l + t - c], {})
  }

  /** The log side after w writes and c comparisons: every frame has the
      input's length, draws its values from s, and carries the marks
      MergeMarks gives its position. */
  predicate LogState(s: seq<int>, l: int, w: int, c: int, emitted: seq<Frame>)
  {
    && 0 <= c && c - 1 <= w && |emitted| == w + c
    && forall t :: 0 <= t < |emitted| ==>
         |emitted[t].arr| == |s| && Within(emitted[t].arr, s) && emitted[t].hl == MergeMarks(l, c, t)
  }

  /** Appending the compare frame for the next destination l + c, once as
      many writes as comparisons were recorded. */
  lemma PushCompare(s: seq<int>, l: int, c: int, emitted: seq<Frame>, b: seq<int>)
    requires LogState(s, l, c, c, emitted)
    requires |b| == |s| && Within(b, s)
    ensures LogState(s, l, c, c + 1, Snapshot(emitted, b, Highlights([l + c], [], {})))
  {
    var e' := Snapshot(emitted, b, Highlights([l + c], [], {}));
    forall t | 0 <= t < |e'|
      ensures |e'[t].arr| == |s| && Within(e'[t].arr, s) && e'[t].hl == MergeMarks(l, c + 1, t)
    {
      if t < |emitted| {
        assert e'[t] == emitted[t];
      }
    }
  }

  /** Appending the swap frame for the write at l + w. */
  lemma PushWrite(s: seq<int>, l: int, w: int, c: int, emitted: seq<Frame>, b: seq<int>)
    requires LogState(s, l, w, c, emitted)
    requires |b| == |s| && Within(b, s)
    ensures LogState(s, l, w + 1, c, Snapshot(emitted, b, Highlights([], [l + w], {})))
  {
    var e' := Snapshot(emitted, b, Highlights([], [l + w], {}));
    forall t | 0 <= t < |e'|
      ensures |e'[t].arr| == |s| && Within(e'[t].arr, s) && e'[t].hl == MergeMarks(l, c, t)
    {
      if t < |emitted| {
        assert e'[t] == emitted[t];
      }
    }
  }

  /** A complete merge log of l..r names only indices in l..r. */
  lemma LogBounds(s: seq<int>, l: int, r: int, c: int, emitted: seq<Frame>)
    requires 0 <= l <= r < |s| && c <= r - l
    requires LogState(s, l, r + 1 - l, c, emitted)
    ensures Sized(emitted, |s|) && InBounds(emitted, |s|) && DrawnFrom(emitted, s)
  {
    forall t | 0 <= t < |emitted|
      ensures IndicesBelow(emitted[t].hl, |s|)
    {
      var hl := MergeMarks(l, c, t);
      assert emitted[t].hl == hl;
    }
  }

  /** Writing inside [lo, hi) keeps everything outside it as it was. */
  lemma SameOutsideWrite(b: seq<int>, a: seq<int>, lo: int, hi: int, k: int, v: int)
    requires SameOutside(b, a, lo, hi) && lo <= k < hi && 0 <= k < |b|
    ensures SameOutside(b[k := v], a, lo, hi)
  {
  }

  /** b holds w at positions l, l+1, ..., l+|w|-1. */
  predicate Holds(b: seq<int>, l: int, w: seq<int>)
  {
    0 <= l && l + |w| <= |b| && forall t :: 0 <= t < |w| ==> b[l + t] == w[t]
  }

  /** Writing v just past the written range extends it by v. */
  lemma HoldsWrite(b: seq<int>, l: int, w: seq<int>, v: int)
    requires Holds(b, l, w) && l + |w| < |b|
    ensures Holds(b[l + |w| := v], l, w + [v])
  {
    var b' := b[l + |w| := v];
    forall t | 0 <= t < |w| + 1
      ensures b'[l + t] == (w + [v])[t]
    {
      if t < |w| {
        assert b'[l + t] == b[l + t];
      }
    }
  }

  /** A range that holds w is the slice w. */
  lemma HoldsSlice(b: seq<int>, l: int, w: seq<int>)
    requires Holds(b, l, w)
    ensures b[l..l + |w|] == w
  {
    forall t | 0 <= t < |w|
      ensures b[l..l + |w|][t] == w[t]
    {
    }
  }

  /** Writes v at k = l + |w|, just past the written range w, and records it
      as a swap frame on k; `a` is the array before the merge began and s
      the engine's input. */
  method Write(s: seq<int>, a: seq<int>, l: int, r: int, c: int, b: seq<int>, emitted: seq<Frame>,
               ghost w: seq<int>, k: int, v: int)
    returns (b': seq<int>, emitted': seq<Frame>)
    requires 0 <= l && k == l + |w| <= r < |a| == |s| && v in s
    requires SameOutside(b, a, l, r + 1) && Within(b, s) && Holds(b, l, w)
    requires LogState(s, l, |w|, c, emitted)
    ensures b' == b[k := v]
    ensures emitted' == emitted + [Frame(b', Highlights([], [k], {}))]
    ensures SameOutside(b', a, l, r + 1) && Within(b', s) && Holds(b', l, w + [v])
    ensures LogState(s, l, |w| + 1, c, emitted')
  {
    WithinUpdate(b, k, v, s);
    SameOutsideWrite(b, a, l, r + 1, k, v);
    HoldsWrite(b, l, w, v);
    b' := b[k := v];
    PushWrite(s, l, |w|, c, emitted, b');
    emitted' := Snapshot(emitted, b', Highlights([], [k], {}));
  }

  /** A slice of an array within s is within s. */
  lemma SliceWithin(b: seq<int>, lo: int, hi: int, s: seq<int>)
    requires 0 <= lo <= hi <= |b| && Within(b, s)
    ensures Within(b[lo..hi], s)
  {
    forall x | x in Values(b[lo..hi])
      ensures x in Values(s)
    {
      var p :| lo <= p < hi && b[p] == x;
      assert b[p] in Values(b);
    }
  }

  /** A sorted index range of an array is a sorted slice. */
  lemma SortedSlice(b: seq<int>, lo: int, hi: int)
    requires 0 <= lo <= hi <= |b|
    ensures SortedRange(b, lo, hi) <==> Sorted(b[lo..hi])
  {
    if Sorted(b[lo..hi]) {
      forall p, q | lo <= p < q < hi
        ensures b[p] <= b[q]
      {
        assert b[p] == b[lo..hi][p - lo] && b[q] == b[lo..hi][q - lo];
      }
    }
  }

  /** Records the "merged" frame that tags l..r sorted. */
  method Merged(s: seq<int>, l: int, r: int, b: seq<int>, emitted: seq<Frame>)
    returns (emitted': seq<Frame>)
    requires 0 <= l <= r < |s| == |b| && Within(b, s)
    requires Sized(emitted, |s|) && InBounds(emitted, |s|) && DrawnFrom(emitted, s)
    ensures emitted' == emitted + [Frame(b, Highlights([], [], RangeSet(l, r + 1)))]
    ensures Sized(emitted', |s|) && InBounds(emitted', |s|) && DrawnFrom(emitted', s)
  {
    emitted' := Snapshot(emitted, b, Highlights([], [], RangeSet(l, r + 1)));
  }

  /** Writes out the head of the left copy. */
  method TakeLeft(s: seq<int>, a: seq<int>, l: int, r: int, left: seq<int>, right: seq<int>,
                  i: int, j: int, c: int, b: seq<int>, emitted: seq<Frame>, ghost w: seq<int>)
    returns (b': seq<int>, emitted': seq<Frame>)
    requires 0 <= l && l + |left| + |right| == r + 1 <= |a| == |s|
    requires Within(left, s) && Within(right, s)
    requires SameOutside(b, a, l, r + 1) && Within(b, s) && Holds(b, l, w)
    requires Merging(left, right, i, j, w) && i < |left|
    requires j < |right| ==> left[i] <= right[j]
    requires LogState(s, l, i + j, c, emitted)
    ensures b' == b[l + i + j := left[i]]
    ensures emitted' == emitted + [Frame(b', Highlights([], [l + i + j], {}))]
    ensures SameOutside(b', a, l, r + 1) && Within(b', s) && Holds(b', l, w + [left[i]])
    ensures Merging(left, right, i + 1, j, w + [left[i]])
    ensures LogState(s, l, i + j + 1, c, emitted')
  {
    StepLeft(left, right, i, j, w);
    assert left[i] in Values(left);
    b', emitted' := Write(s, a, l, r, c, b, emitted, w, l + i + j, left[i]);
  }

  /** Writes out the head of the right copy. */
  method TakeRight(s: seq<int>, a: seq<int>, l: int, r: int, left: seq<int>, right: seq<int>,
                   i: int, j: int, c: int, b: seq<int>, emitted: seq<Frame>, ghost w: seq<int>)
    returns (b': seq<int>, emitted': seq<Frame>)
    requires 0 <= l && l + |left| + |right| == r + 1 <= |a| == |s|
    requires Within(left, s) && Within(right, s)
    requires SameOutside(b, a, l, r + 1) && Within(b, s) && Holds(b, l, w)
    requires Merging(left, right, i, j, w) && j < |right|
    requires i < |left| ==> right[j] < left[i]
    requires LogState(s, l, i + j, c, emitted)
    ensures b' == b[l + i + j := right[j]]
    ensures emitted' == emitted + [Frame(b', Highlights([], [l + i + j], {}))]
    ensures SameOutside(b', a, l, r + 1) && Within(b', s) && Holds(b', l, w + [right[j]])
    ensures Merging(left, right, i, j + 1, w + [right[j]])
    ensures LogState(s, l, i + j + 1, c, emitted')
  {
    StepRight(left, right, i, j, w);
    assert right[j] in Values(right);
    b', emitted' := Write(s, a, l, r, c, b, emitted, w, l + i + j, right[j]);
  }

  /** The first loop of the merge: while both copies have elements, a
      compare frame on the destination, then the smaller head (the left one
      on ties) is written out. */
  method MergeBoth(s: seq<int>, a: seq<int>, l: int, r: int, left: seq<int>, right: seq<int>)
    returns (i: int, j: int, b: seq<int>, emitted: seq<Frame>, ghost w: seq<int>)
    requires 0 <= l && l + |left| + |right| == r + 1 <= |a| == |s|
    requires Within(left, s) && Within(right, s) && Within(a, s)
    requires |left| > 0 && |right| > 0
    ensures (i == |left| || j == |right|) && (i < |left| || j < |right|)
    ensures SameOutside(b, a, l, r + 1) && Within(b, s) && Holds(b, l, w)
    ensures Merging(left, right, i, j, w)
    ensures LogState(s, l, i + j, i + j, emitted)
    ensures emitted[0] == Frame(a, Highlights([l], [], {}))
  {
    i, j := 0, 0;
    b, emitted, w := a, [], [];
    while i < |left| && j < |right|
      invariant SameOutside(b, a, l, r + 1) && Within(b, s) && Holds(b, l, w)
      invariant Merging(left, right, i, j, w)
      invariant LogState(s, l, i + j, i + j, emitted)
      invariant i < |left| || j < |right|
      invariant i + j == 0 ==> b == a && emitted == []
      invariant i + j > 0 ==> emitted[0] == Frame(a, Highlights([l], [], {}))
      decreases |left| + |right| - i - j
    {
      PushCompare(s, l, i + j, emitted, b);
      emitted := Snapshot(emitted, b, Highlights([l + i + j], [], {}));
      if left[i] <= right[j] {
        b, emitted := TakeLeft(s, a, l, r, left, right, i, j, i + j + 1, b, emitted, w);
        w := w + [left[i]];
        i := i + 1;
      } else {
        b, emitted := TakeRight(s, a, l, r, left, right, i, j, i + j + 1, b, emitted, w);
        w := w + [right[j]];
        j := j + 1;
      }
    }
  }

  /** The second loop of the merge: what is left of the left copy is
      written out in order, without comparisons. */
  method DrainLeft(s: seq<int>, a: seq<int>, l: int, r: int, left: seq<int>, right: seq<int>,
                   i0: int, c: int, b0: seq<int>, emitted0: seq<Frame>, ghost w0: seq<int>)
    returns (b: seq<int>, emitted: seq<Frame>, ghost w: seq<int>)
    requires 0 <= l && l + |left| + |right| == r + 1 <= |a| == |s|
    requires Within(left, s) && Within(right, s)
    requires SameOutside(b0, a, l, r + 1) && Within(b0, s) && Holds(b0, l, w0)
    requires Merging(left, right, i0, |right|, w0)
    requires LogState(s, l, i0 + |right|, c, emitted0)
    ensures SameOutside(b, a, l, r + 1) && Within(b, s) && Holds(b, l, w)
    ensures Merging(left, right, |left|, |right|, w)
    ensures LogState(s, l, |left| + |right|, c, emitted)
    ensures |emitted0| > 0 ==> emitted[0] == emitted0[0]
  {
    var i := i0;
    b, emitted, w := b0, emitted0, w0;
    while i < |left|
      invariant SameOutside(b, a, l, r + 1) && Within(b, s) && Holds(b, l, w)
      invariant Merging(left, right, i, |right|, w)
      invariant LogState(s, l, i + |right|, c, emitted)
      invariant |emitted0| > 0 ==> emitted[0] == emitted0[0]
      decreases |left| - i
    {
      b, emitted := TakeLeft(s, a, l, r, left, right, i, |right|, c, b, emitted, w);
      w := w + [left[i]];
      i := i + 1;
    }
  }

  /** The third loop of the merge: what is left of the right copy is
      written out in order, without comparisons. */
  method DrainRight(s: seq<int>, a: seq<int>, l: int, r: int, left: seq<int>, right: seq<int>,
                    j0: int, c: int, b0: seq<int>, emitted0: seq<Frame>, ghost w0: seq<int>)
    returns (b: seq<int>, emitted: seq<Frame>, ghost w: seq<int>)
    requires 0 <= l && l + |left| + |right| == r + 1 <= |a| == |s|
    requires Within(left, s) && Within(right, s)
    requires SameOutside(b0, a, l, r + 1) && Within(b0, s) && Holds(b0, l, w0)
    requires Merging(left, right, |left|, j0, w0)
    requires LogState(s, l, |left| + j0, c, emitted0)
    ensures SameOutside(b, a, l, r + 1) && Within(b, s) && Holds(b, l, w)
    ensures Merging(left, right, |left|, |right|, w)
    ensures LogState(s, l, |left| + |right|, c, emitted)
    ensures |emitted0| > 0 ==> emitted[0] == emitted0[0]
  {
    var j := j0;
    b, emitted, w := b0, emitted0, w0;
    while j < |right|
      invariant SameOutside(b, a, l, r + 1) && Within(b, s) && Holds(b, l, w)
      invariant Merging(left, right, |left|, j, w)
      invariant LogState(s, l, |left| + j, c, emitted)
      invariant |emitted0| > 0 ==> emitted[0] == emitted0[0]
      decreases |right| - j
    {
      b, emitted := TakeRight(s, a, l, r, left, right, |left|, j, c, b, emitted, w);
      w := w + [right[j]];
      j := j + 1;
    }
  }

  /** Once both copies are used up, the written range is the reference
      merge of the two runs. */
  lemma Completed(a: seq<int>, b: seq<int>, l: int, m: int, r: int, w: seq<int>)
    requires 0 <= l <= m < r < |a| == |b|
    requires Holds(b, l, w) && Merging(a[l..m + 1], a[m + 1..r + 1], m + 1 - l, r - m, w)
    ensures b[l..r + 1] == MergeSeq(a[l..m + 1], a[m + 1..r + 1])
  {
    HoldsSlice(b, l, w);
    assert a[l..m + 1][m + 1 - l..] == [] && a[m + 1..r + 1][r - m..] == [];
  }

  /** The reference merge of a[l..m] and a[m+1..r] is a permutation of
      a[l..r]. */
  lemma MergedPermutes(a: seq<int>, b: seq<int>, l: int, m: int, r: int)
    requires 0 <= l <= m < r < |a| == |b|
    requires b[l..r + 1] == MergeSeq(a[l..m + 1], a[m + 1..r + 1])
    ensures multiset(b[l..r + 1]) == multiset(a[l..r + 1])
  {
    MergeSeqPermutes(a[l..m + 1], a[m + 1..r + 1]);
    assert a[l..r + 1] == a[l..m + 1] + a[m + 1..r + 1];
  }

  /** The reference merge of two sorted runs is sorted. */
  lemma MergedSorted(a: seq<int>, b: seq<int>, l: int, m: int, r: int)
    requires 0 <= l <= m < r < |a| == |b|
    requires b[l..r + 1] == MergeSeq(a[l..m + 1], a[m + 1..r + 1])
    requires SortedRange(a, l, m + 1) && SortedRange(a, m + 1, r + 1)
    ensures SortedRange(b, l, r + 1)
  {
    SortedSlice(a, l, m + 1);
    SortedSlice(a, m + 1, r + 1);
    MergeSeqSorted(a[l..m + 1], a[m + 1..r + 1]);
    SortedSlice(b, l, r + 1);
  }

  /** The three loops of the merge, from the copies of both runs. */
  method MergeCopies(s: seq<int>, a: seq<int>, l: int, m: int, r: int)
    returns (b: seq<int>, emitted: seq<Frame>, c: int)
    requires 0 <= l <= m < r < |a| == |s| && Within(a, s)
    ensures SameOutside(b, a, l, r + 1) && Within(b, s)
    ensures b[l..r + 1] == MergeSeq(a[l..m + 1], a[m + 1..r + 1])
    ensures LogState(s, l, r + 1 - l, c, emitted)
    ensures c <= r - l && (c >= m + 1 - l || c >= r - m)
    ensures emitted[0] == Frame(a, Highlights([l], [], {}))
  {
    var left := a[l..m + 1];
    var right := a[m + 1..r + 1];
    SliceWithin(a, l, m + 1, s);
    SliceWithin(a, m + 1, r + 1, s);
    var i, j;
    ghost var w;
    i, j, b, emitted, w := MergeBoth(s, a, l, r, left, right);
    c := i + j;
    if j == |right| {
      b, emitted, w := DrainLeft(s, a, l, r, left, right, i, c, b, emitted, w);
    } else {
      b, emitted, w := DrainRight(s, a, l, r, left, right, j, c, b, emitted, w);
    }
    Completed(a, b, l, m, r, w);
  }

  /** The merge of app.py's merge sort: merges a[l..m] and a[m+1..r] in
      place, from copies of both, into their reference merge (a sorted
      permutation when both runs are sorted). Before each comparison it
      records a compare frame on the destination k, after each write a swap
      frame on k (destinations l, l+1, ..., r in order), and at the end a
      frame tagging l..r sorted. Comparisons stop once either copy is used
      up, so there are at least as many as the shorter run and fewer than
      the elements merged. */
  method Merge(s: seq<int>, a: seq<int>, l: int, m: int, r: int)
    returns (b: seq<int>, emitted: seq<Frame>)
    requires 0 <= l <= m < r < |a| == |s| && Within(a, s)
    ensures SameOutside(b, a, l, r + 1) && Within(b, s)
    ensures b[l..r + 1] == MergeSeq(a[l..m + 1], a[m + 1..r + 1])
    ensures multiset(b[l..r + 1]) == multiset(a[l..r + 1])
    ensures SortedRange(a, l, m + 1) && SortedRange(a, m + 1, r + 1) ==> SortedRange(b, l, r + 1)
    ensures Sized(emitted, |s|) && InBounds(emitted, |s|) && DrawnFrom(emitted, s)
    ensures |emitted| >= 1 && Last(emitted) == Frame(b, Highlights([], [], RangeSet(l, r + 1)))
    ensures var body := emitted[..|emitted| - 1]; var c := |body| - (r - l + 1);
      && 0 <= c <= r - l && (c >= m + 1 - l || c >= r - m)
      && forall t :: 0 <= t < |body| ==> body[t].hl == MergeMarks(l, c, t)
    ensures emitted[0] == Frame(a, Highlights([l], [], {}))
  {
    var c;
    b, emitted, c := MergeCopies(s, a, l, m, r);
    MergedPermutes(a, b, l, m, r);
    if SortedRange(a, l, m + 1) && SortedRange(a, m + 1, r + 1) {
      MergedSorted(a, b, l, m, r);
    }
    LogBounds(s, l, r, c, emitted);
    ghost var body := emitted;
    emitted := Merged(s, l, r, b, emitted);
    assert emitted[..|emitted| - 1] == body;
  }

  /** Merge, seen from the recursion: two sorted runs become one sorted run,
      the array is permuted only within l..r, and the log is well formed. */
  method MergeRuns(s: seq<int>, a: seq<int>, l: int, m: int, r: int)
    returns (b: seq<int>, emitted: seq<Frame>)
    requires 0 <= l <= m < r < |a| == |s| && Within(a, s)
    requires SortedRange(a, l, m + 1) && SortedRange(a, m + 1, r + 1)
    ensures SameOutside(b, a, l, r + 1) && multiset(b) == multiset(a) && Within(b, s)
    ensures SortedRange(b, l, r + 1)
    ensures Sized(emitted, |s|) && InBounds(emitted, |s|) && DrawnFrom(emitted, s)
    ensures emitted != [] && emitted[0] == Frame(a, Highlights([l], [], {}))
  {
    b, emitted := Merge(s, a, l, m, r);
    RangePermutes(a, b, l, r + 1);
  }

  /** The logs of both recursive calls and of the merge, in order. */
  function Join(s: seq<int>, e1: seq<Frame>, e2: seq<Frame>, e3: seq<Frame>): (e: seq<Frame>)
    requires Sized(e1, |s|) && InBounds(e1, |s|) && DrawnFrom(e1, s)
    requires Sized(e2, |s|) && InBounds(e2, |s|) && DrawnFrom(e2, s)
    requires Sized(e3, |s|) && InBounds(e3, |s|) && DrawnFrom(e3, s)
    ensures e == e1 + e2 + e3
    ensures Sized(e, |s|) && InBounds(e, |s|) && DrawnFrom(e, s)
  {
    SizedConcat(e1, e2, |s|);
    InBoundsConcat(e1, e2, |s|);
    DrawnFromConcat(e1, e2, s);
    SizedConcat(e1 + e2, e3, |s|);
    InBoundsConcat(e1 + e2, e3, |s|);
    DrawnFromConcat(e1 + e2, e3, s);
    e1 + e2 + e3
  }

  /** The recursive sort(l, r) of app.py's merge sort: ranges of at most one
      element are left alone with no frame; otherwise both halves around
      m = (l + r) / 2 are sorted and then merged. The range l..r ends
      sorted and permuted, the rest of the array is untouched, and every
      frame names only valid indices and holds only values of the input s. */
  method MergeSortRange(s: seq<int>, a: seq<int>, l: int, r: int)
    returns (b: seq<int>, emitted: seq<Frame>)
    requires 0 <= l && r < |a| == |s| && Within(a, s)
    ensures SameOutside(b, a, l, r + 1) && multiset(b) == multiset(a) && Within(b, s)
    ensures l <= r ==> SortedRange(b, l, r + 1)
    ensures Sized(emitted, |s|) && InBounds(emitted, |s|) && DrawnFrom(emitted, s)
    ensures l >= r <==> emitted == []
    ensures l >= r ==> b == a
    ensures l < r ==> emitted[0] == Frame(a, Highlights([l], [], {}))
    decreases r - l
  {
    if l >= r {
      return a, [];
    }
    var m := (l + r) / 2;
    var b1, e1 := MergeSortRange(s, a, l, m);
    var b2, e2 := MergeSortRange(s, b1, m + 1, r);
    SortedKept(b1, b2, l, m + 1, m + 1, r + 1);
    var e3;
    b, e3 := MergeRuns(s, b2, l, m, r);
    emitted := Join(s, e1, e2, e3);
  }

  method MergeSortFrames(input: seq<int>) returns (frames: seq<Frame>)
    ensures EngineContract(input, frames)
    ensures Last(frames).hl == DoneHighlights(|input|)
    ensures InBounds(frames, |input|)
    ensures DrawnFrom(frames, input)
    ensures |input| >= 2 ==> frames[1] == Frame(input, Highlights([0], [], {}))
  {
    var n := |input|;
    PermutationWithin(input, input);
    frames := Snapshot([], input, NoHighlights);
    var a, sorting := MergeSortRange(input, input, 0, n - 1);
    assert Sorted(a) by {
      if n > 0 {
        assert SortedRange(a, 0, n);
      }
    }
    SizedConcat(frames, sorting, n);
    InBoundsConcat(frames, sorting, n);
    DrawnFromConcat(frames, sorting, input);
    frames := frames + sorting;
    PermutationWithin(a, input);
    frames := Snapshot(frames, a, DoneHighlights(n));
  }
}

=== FILE: option.dfy ===
/** An optional value: a request parameter that may be absent, or a lookup
    that may fail. */
module Optional {
  datatype Option<T> = None | Some(value: T)

  /** The value held, or d when there is none: a dictionary `get` with a
      default. */
  function GetOr<T>(o: Option<T>, d: T): (r: T)
    ensures o.Some? ==> r == o.value
    ensures o.None? ==> r == d
  {
    match o
    case Some(v) => v
    case None => d
  }
}

=== FILE: playback.dfy ===
/** The playback cursor of a run: a position in its frame log and the
    autoplay flag, moved by the navigation commands, and the clamp that
    keeps a position inside the log before a frame is shown. */
module Playback {
  import opened Optional

  datatype Cursor = Cursor(index: int, autoplay: bool)

  /** The cursor points at one of the L frames. */
  predicate InRange(c: Cursor, L: int)
  {
    0 <= c.index < L
  }

  /** The command a request carries: "next" when the request names none. */
  function Command(dir: Option<string>): (cmd: string)
    ensures dir.Some? ==> cmd == dir.value
    ensures dir.None? ==> cmd == "next"
  {
    GetOr(dir, "next")
  }

  /** One navigation command over a log of L frames. "next" and "prev" step
      by one and stop at the ends, "first" and "last" jump to the ends,
      "toggle_auto" flips autoplay, and any other command changes nothing. */
  function Advance(c: Cursor, cmd: string, L: int): (c': Cursor)
    ensures cmd != "toggle_auto" ==> c'.autoplay == c.autoplay
    ensures cmd == "toggle_auto" ==> c' == Cursor(c.index, !c.autoplay)
    ensures cmd == "first" ==> c'.index == 0
    ensures cmd == "last" ==> c'.index == L - 1
    ensures L >= 1 && InRange(c, L) ==> InRange(c', L)
    ensures L >= 1 && (cmd == "first" || cmd == "last") ==> InRange(c', L)
    ensures InRange(c, L) && cmd == "next" ==>
      c'.index == (if c.index == L - 1 then c.index else c.index + 1)
    ensures InRange(c, L) && cmd == "prev" ==>
      c'.index == (if c.index == 0 then 0 else c.index - 1)
    ensures cmd !in {"next", "prev", "first", "last", "toggle_auto"} ==> c' == c
  {
    if cmd == "next" then c.(index := Min(c.index + 1, L - 1))
    else if cmd == "prev" then c.(index := Max(c.index - 1, 0))
    else if cmd == "first" then c.(index := 0)
    else if cmd == "last" then c.(index := L - 1)
    else if cmd == "toggle_auto" then c.(autoplay := !c.autoplay)
    else c
  }

  function Min(x: int, y: int): int
  {
    if x <= y then x else y
  }

  function Max(x: int, y: int): int
  {
    if x >= y then x else y
  }

  /** The position a run is shown at: its stored index pulled into the
      log's range. An index already in range is kept; with no frames at all
      the result is 0. */
  function ClampIndex(i: int, L: int): (r: int)
    ensures L >= 1 ==> 0 <= r < L
    ensures 0 <= i < L ==> r == i
    ensures L >= 1 && i < 0 ==> r == 0
    ensures L >= 1 && i >= L ==> r == L - 1
    ensures L < 1 ==> r == 0
  {
    Max(0, Min(i, L - 1))
  }

  /** Clamping twice is clamping once. */
  lemma ClampIdempotent(i: int, L: int)
    ensures ClampIndex(ClampIndex(i, L), L) == ClampIndex(i, L)
  {
  }

  /** A stream of commands applied in order. */
  function Replay(c: Cursor, cmds: seq<string>, L: int): (c': Cursor)
    decreases |cmds|
  {
    if |cmds| == 0 then c else Replay(Advance(c, cmds[0], L), cmds[1..], L)
  }

  /** No stream of commands moves an in-range cursor out of the log. */
  lemma {:induction false} ReplayInRange(c: Cursor, cmds: seq<string>, L: int)
    requires InRange(c, L)
    ensures InRange(Replay(c, cmds, L), L)
    decreases |cmds|
  {
    if |cmds| > 0 {
      ReplayInRange(Advance(c, cmds[0], L), cmds[1..], L);
    }
  }

  /** k "next" commands. */
  function Nexts(k: nat): (cmds: seq<string>)
    ensures |cmds| == k && forall t :: 0 <= t < k ==> cmds[t] == "next"
  {
    if k == 0 then [] else ["next"] + Nexts(k - 1)
  }

  /** Stepping forward often enough reaches the last frame and stays there,
      with autoplay unchanged. */
  lemma {:induction false} NextsReachLast(c: Cursor, k: nat, L: int)
    requires InRange(c, L) && k >= L - 1 - c.index
    ensures Replay(c, Nexts(k), L) == Cursor(L - 1, c.autoplay)
    decreases k
  {
    if k > 0 {
      assert Nexts(k)[1..] == Nexts(k - 1);
      NextsReachLast(Advance(c, "next", L), k - 1, L);
    }
  }

  /** Away from the last frame, "prev" undoes "next"; away from the first
      frame, "next" undoes "prev". */
  lemma StepsUndo(c: Cursor, L: int)
    requires InRange(c, L)
    ensures c.index < L - 1 ==> Advance(Advance(c, "next", L), "prev", L) == c
    ensures c.index > 0 ==> Advance(Advance(c, "prev", L), "next", L) == c
  {
  }

  /** Toggling twice restores the cursor; "first" and "last" are
      idempotent. */
  lemma CommandsIdempotent(c: Cursor, L: int)
    ensures Advance(Advance(c, "toggle_auto", L), "toggle_auto", L) == c
    ensures Advance(Advance(c, "first", L), "first", L) == Advance(c, "first", L)
    ensures Advance(Advance(c, "last", L), "last", L) == Advance(c, "last", L)
  {
  }
}

=== FILE: quick.dfy ===
/** Quick sort with the Lomuto partition (the last element of the range is
    the pivot). A frame is recorded before every comparison with the pivot,
    after every swap of two distinct positions, and after the pivot is moved
    into place. Every recorded array is a permutation of the input. */
module QuickSort {
  import opened Frames

  /** Every frame has the input's length, names only valid indices, holds a
      permutation of the input, and marks a swap on one index or on two
      distinct ones. */
  predicate Recorded(log: seq<Frame>, s: seq<int>)
  {
    forall t :: 0 <= t < |log| ==>
      && |log[t].arr| == |s| && IndicesBelow(log[t].hl, |s|)
      && multiset(log[t].arr) == multiset(s) && DistinctSwap(log[t].hl)
  }

  lemma RecordedConcat(l1: seq<Frame>, l2: seq<Frame>, s: seq<int>)
    requires Recorded(l1, s) && Recorded(l2, s)
    ensures Recorded(l1 + l2, s)
  {
    forall t | 0 <= t < |l1 + l2|
      ensures (l1 + l2)[t] == if t < |l1| then l1[t] else l2[t - |l1|]
    {
    }
  }

  /** A snapshot with no sorted tags over an array that permutes s, with
      short marks and a swap mark on distinct indices, keeps the log
      Recorded. */
  lemma SnapshotRecorded(log: seq<Frame>, s: seq<int>, b: seq<int>, compare: seq<int>, swap: seq<int>)
    requires Recorded(log, s) && |b| == |s| && multiset(b) == multiset(s)
    requires ShortBelow(compare, |s|) && ShortBelow(swap, |s|)
    requires |swap| == 2 ==> swap[0] != swap[1]
    ensures Recorded(Snapshot(log, b, Highlights(compare, swap, {})), s)
  {
    RecordedConcat(log, [Frame(b, Highlights(compare, swap, {}))], s);
  }

  /** Every element of b[lo..hi-1] is below v. */
  predicate Below(b: seq<int>, lo: int, hi: int, v: int)
    requires 0 <= lo && hi <= |b|
  {
    forall k :: lo <= k < hi ==> b[k] < v
  }

  /** Every element of b[lo..hi-1] is at least v. */
  predicate AtLeast(b: seq<int>, lo: int, hi: int, v: int)
    requires 0 <= lo && hi <= |b|
  {
    forall k :: lo <= k < hi ==> b[k] >= v
  }

  /** Permuting a range keeps an upper bound on its elements. */
  lemma BelowKept(a: seq<int>, b: seq<int>, lo: int, hi: int, v: int)
    requires 0 <= lo <= hi <= |a|
    requires SameOutside(b, a, lo, hi) && multiset(b) == multiset(a)
    requires Below(a, lo, hi, v)
    ensures Below(b, lo, hi, v)
  {
    RangeFromWhole(a, b, lo, hi);
    forall k | lo <= k < hi
      ensures b[k] < v
    {
      assert b[k] == b[lo..hi][k - lo];
      assert b[k] in multiset(a[lo..hi]);
      var q :| 0 <= q < hi - lo && a[lo..hi][q] == b[k];
      assert a[lo + q] == b[k];
    }
  }

  /** Permuting a range keeps a lower bound on its elements. */
  lemma AtLeastKept(a: seq<int>, b: seq<int>, lo: int, hi: int, v: int)
    requires 0 <= lo <= hi <= |a|
    requires SameOutside(b, a, lo, hi) && multiset(b) == multiset(a)
    requires AtLeast(a, lo, hi, v)
    ensures AtLeast(b, lo, hi, v)
  {
    RangeFromWhole(a, b, lo, hi);
    forall k | lo <= k < hi
      ensures b[k] >= v
    {
      assert b[k] == b[lo..hi][k - lo];
      assert b[k] in multiset(a[lo..hi]);
      var q :| 0 <= q < hi - lo && a[lo..hi][q] == b[k];
      assert a[lo + q] == b[k];
    }
  }

  /** One iteration of the partition loop at j: a compare frame on (j, high);
      when b[j] is below the pivot, the boundary i advances and, unless it
      meets j, b[i] and b[j] are swapped and a swap frame is recorded. */
  method PartitionStep(s: seq<int>, a: seq<int>, low: int, high: int, pivot: int,
                       b: seq<int>, i: int, j: int, emitted: seq<Frame>)
    returns (b': seq<int>, i': int, emitted': seq<Frame>)
    requires 0 <= low <= j < high < |a| == |s|
    requires low - 1 <= i < j
    requires SameOutside(b, a, low, high + 1) && multiset(b) == multiset(s) && b[high] == pivot
    requires Below(b, low, i + 1, pivot) && AtLeast(b, i + 1, j, pivot)
    requires Recorded(emitted, s)
    ensures low - 1 <= i' < j + 1
    ensures SameOutside(b', a, low, high + 1) && multiset(b') == multiset(s) && b'[high] == pivot
    ensures Below(b', low, i' + 1, pivot) && AtLeast(b', i' + 1, j + 1, pivot)
    ensures i' == if b[j] < pivot then i + 1 else i
    ensures b' == if b[j] < pivot && i + 1 != j then Swap(b, i + 1, j) else b
    ensures emitted' == emitted + [Frame(b, Highlights([j, high], [], {}))]
      + (if b[j] < pivot && i + 1 != j then [Frame(b', Highlights([], [i + 1, j], {}))] else [])
    ensures Recorded(emitted', s)
  {
    SnapshotRecorded(emitted, s, b, [j, high], []);
    emitted' := Snapshot(emitted, b, Highlights([j, high], [], {}));
    b', i' := b, i;
    if b[j] < pivot {
      i' := i + 1;
      if i' != j {
        b' := Swap(b, i', j);
        SnapshotRecorded(emitted', s, b', [], [i', j]);
        emitted' := Snapshot(emitted', b', Highlights([], [i', j], {}));
      }
    }
  }

  /** The partition loop over j = low, ..., high - 1. */
  method PartitionScan(s: seq<int>, a: seq<int>, low: int, high: int)
    returns (b: seq<int>, i: int, emitted: seq<Frame>)
    requires 0 <= low < high < |a| == |s| && multiset(a) == multiset(s)
    ensures low - 1 <= i < high
    ensures SameOutside(b, a, low, high + 1) && multiset(b) == multiset(s) && b[high] == a[high]
    ensures Below(b, low, i + 1, a[high]) && AtLeast(b, i + 1, high, a[high])
    ensures Recorded(emitted, s) && |emitted| >= high - low
    ensures emitted[0] == Frame(a, Highlights([low, high], [], {}))
  {
    var pivot := a[high];
    b, i, emitted := a, low - 1, [];
    var j := low;
    while j < high
      invariant low <= j <= high && low - 1 <= i < j
      invariant SameOutside(b, a, low, high + 1) && multiset(b) == multiset(s) && b[high] == pivot
      invariant Below(b, low, i + 1, pivot) && AtLeast(b, i + 1, j, pivot)
      invariant Recorded(emitted, s) && |emitted| >= j - low
      invariant j == low ==> b == a && emitted == []
      invariant j > low ==> emitted[0] == Frame(a, Highlights([low, high], [], {}))
    {
      b, i, emitted := PartitionStep(s, a, low, high, pivot, b, i, j, emitted);
      j := j + 1;
    }
  }

  /** partition(low, high) of app.py's quick sort: returns the pivot's final
      position p in low..high, with the pivot a[high] at p, everything
      before p (within the range) below it and everything after it at least
      it; only low..high is permuted. A swap frame is recorded only for two
      distinct positions. */
  method Partition(s: seq<int>, a: seq<int>, low: int, high: int)
    returns (b: seq<int>, p: int, emitted: seq<Frame>)
    requires 0 <= low < high < |a| == |s| && multiset(a) == multiset(s)
    ensures low <= p <= high
    ensures SameOutside(b, a, low, high + 1) && multiset(b) == multiset(a)
    ensures b[p] == a[high]
    ensures Below(b, low, p, b[p]) && AtLeast(b, p + 1, high + 1, b[p])
    ensures Recorded(emitted, s) && |emitted| >= high - low
    ensures emitted[0] == Frame(a, Highlights([low, high], [], {}))
  {
    var i;
    b, i, emitted := PartitionScan(s, a, low, high);
    p := i + 1;
    if p != high {
      var c := Swap(b, p, high);
      assert AtLeast(c, p + 1, high + 1, a[high]) by {
        forall k | p + 1 <= k <= high
          ensures c[k] >= a[high]
        {
          if k == high {
            assert c[k] == b[p];
          } else {
            assert c[k] == b[k];
          }
        }
      }
      b := c;
      SnapshotRecorded(emitted, s, b, [], [p, high]);
      emitted := Snapshot(emitted, b, Highlights([], [p, high], {}));
    }
  }

  /** After partitioning around p and sorting both sides in place, the
      whole range is sorted: the left side stays below the pivot and the
      right side at least the pivot, since each was only permuted. */
  lemma {:induction false} Assemble(b1: seq<int>, b2: seq<int>, b3: seq<int>, low: int, p: int, high: int)
    requires 0 <= low <= p <= high < |b1|
    requires Below(b1, low, p, b1[p]) && AtLeast(b1, p + 1, high + 1, b1[p])
    requires SameOutside(b2, b1, low, p) && multiset(b2) == multiset(b1)
    requires SortedRange(b2, low, p)
    requires SameOutside(b3, b2, p + 1, high + 1) && multiset(b3) == multiset(b2)
    requires SortedRange(b3, p + 1, high + 1)
    ensures SortedRange(b3, low, high + 1)
  {
    var pivot := b1[p];
    BelowKept(b1, b2, low, p, pivot);
    assert AtLeast(b2, p + 1, high + 1, pivot) by {
      forall k | p + 1 <= k <= high
        ensures b2[k] >= pivot
      {
        assert b2[k] == b1[k];
      }
    }
    AtLeastKept(b2, b3, p + 1, high + 1, pivot);
    SortedKept(b2, b3, low, p, p + 1, high + 1);
    assert b3[p] == pivot;
    forall x, y | low <= x < y <= high
      ensures b3[x] <= b3[y]
    {
      if x < p {
        assert b3[x] == b2[x] && b2[x] < pivot;
      }
    }
  }

  /** quick(low, high) of app.py's quick sort: a range of at most one
      element is left alone with no frame; otherwise it is partitioned and
      both sides of the pivot are sorted recursively. The range ends sorted,
      the array is permuted only within it, and every frame is a
      permutation of the input with valid, distinct swap marks. */
  method QuickSortRange(s: seq<int>, a: seq<int>, low: int, high: int)
    returns (b: seq<int>, emitted: seq<Frame>)
    requires 0 <= low && high < |a| == |s| && multiset(a) == multiset(s)
    ensures SameOutside(b, a, low, high + 1) && multiset(b) == multiset(a)
    ensures low <= high ==> SortedRange(b, low, high + 1)
    ensures Recorded(emitted, s)
    ensures low >= high <==> emitted == []
    ensures low < high ==> emitted[0] == Frame(a, Highlights([low, high], [], {}))
    decreases high - low
  {
    if low >= high {
      return a, [];
    }
    var b1, p, e1 := Partition(s, a, low, high);
    var b2, e2 := QuickSortRange(s, b1, low, p - 1);
    var b3, e3 := QuickSortRange(s, b2, p + 1, high);
    Assemble(b1, b2, b3, low, p, high);
    RecordedConcat(e1, e2, s);
    RecordedConcat(e1 + e2, e3, s);
    b, emitted := b3, e1 + e2 + e3;
  }

  method QuickSortFrames(input: seq<int>) returns (frames: seq<Frame>)
    ensures EngineContract(input, frames)
    ensures Last(frames).hl == DoneHighlights(|input|)
    ensures InBounds(frames, |input|)
    ensures Permutes(frames, input)
    ensures forall t :: 0 <= t < |frames| ==> DistinctSwap(frames[t].hl)
    ensures |input| >= 2 ==> frames[1] == Frame(input, Highlights([0, |input| - 1], [], {}))
  {
    var n := |input|;
    var a, sorting := QuickSortRange(input, input, 0, n - 1);
    assert Sorted(a) by {
      if n > 0 {
        assert SortedRange(a, 0, n);
      }
    }
    var start := Snapshot([], input, NoHighlights);
    var done := Snapshot([], a, DoneHighlights(n));
    RecordedConcat(start, sorting, input);
    RecordedConcat(start + sorting, done, input);
    frames := start + sorting + done;
  }
}

=== FILE: registry.dfy ===
/** The process-wide store of runs: a run is created by "start" with its
    cursor at the first frame, shown by "view" at its clamped cursor,
    navigated by "advance", and removed by "reset". The client's session
    is the optional run id a request carries; the store is passed in and
    returned rather than held globally. */
module Registry {
  import opened Optional
  import opened Frames
  import opened Algorithms
  import opened Playback

  /** A stored run. The speed is kept as given; navigation never changes
      it. */
  datatype Run = Run(algo: string, frames: seq<Frame>, cursor: Cursor, speed: real, size: int)

  type Store = map<string, Run>

  /** The requested array size pulled into 5..120. */
  function ClampSize(size: int): (r: int)
    ensures 5 <= r <= 120
    ensures 5 <= size <= 120 ==> r == size
    ensures size < 5 ==> r == 5
    ensures size > 120 ==> r == 120
  {
    Max(5, Min(size, 120))
  }

  /** What a created run promises as long as it is stored: a non-empty log
      whose first frame holds the clamped number of elements, a cursor
      inside the log, and an algorithm key the table holds. */
  predicate WellFormedRun(run: Run)
  {
    && |run.frames| >= 1
    && InRange(run.cursor, |run.frames|)
    && Lookup(run.algo).Some?
    && 5 <= run.size <= 120
    && |run.frames[0].arr| == run.size
  }

  predicate WellFormed(store: Store)
  {
    forall id :: id in store ==> WellFormedRun(store[id])
  }

  /** The store after "start" as app.py writes it: the key the client sent
      is stored as it came, even when the table does not hold it. */
  function RegisterAsWritten(store: Store, id: string, key: string, frames: seq<Frame>,
                             autoplay: bool, speed: real, size: int): (store': Store)
    ensures id in store' && store'[id] == Run(key, frames, Cursor(0, autoplay), speed, size)
    ensures forall other :: other != id ==> (other in store' <==> other in store)
    ensures forall other :: other != id && other in store ==> store'[other] == store[other]
  {
    store[id := Run(key, frames, Cursor(0, autoplay), speed, size)]
  }

  /** The store after "start", corrected: the run records the key of the
      algorithm that actually produced its frames, so an unknown key is
      stored as "bubble". */
  function Register(store: Store, id: string, key: string, frames: seq<Frame>,
                    autoplay: bool, speed: real, size: int): (store': Store)
    ensures id in store' && store'[id] == Run(Key(Resolve(key)), frames, Cursor(0, autoplay), speed, size)
    ensures Lookup(store'[id].algo).Some?
    ensures forall other :: other != id ==> (other in store' <==> other in store)
    ensures forall other :: other != id && other in store ==> store'[other] == store[other]
  {
    KeyRoundTrip(Resolve(key));
    store[id := Run(Key(Resolve(key)), frames, Cursor(0, autoplay), speed, size)]
  }

  /** "start" as app.py writes it: the algorithm field defaults to
      "bubble"; the size is clamped; the engine the key resolves to runs on
      the generated data; and the run is stored under the fresh id with its
      cursor at the first frame and the key exactly as submitted. The data
      stands for the random values generated for the clamped size and the id
      for the generated run id. The store stays well formed exactly when the
      submitted key is one the table holds. */
  method StartAsWritten(store: Store, id: string, algorithm: Option<string>, size: int, data: seq<int>,
                        autoplay: bool, speed: real)
    returns (store': Store)
    requires |data| == ClampSize(size)
    ensures id in store'
    ensures var run := store'[id];
      && run.algo == GetOr(algorithm, "bubble") && run.cursor == Cursor(0, autoplay)
      && run.size == ClampSize(size) && run.speed == speed
      && EngineContract(data, run.frames)
      && Last(run.frames).hl == DoneHighlights(|data|)
      && Opening(Resolve(GetOr(algorithm, "bubble")), data, run.frames)
    ensures forall other :: other != id ==> (other in store' <==> other in store)
    ensures forall other :: other != id && other in store ==> store'[other] == store[other]
    ensures WellFormed(store) ==> (WellFormed(store') <==> Lookup(GetOr(algorithm, "bubble")).Some?)
  {
    var key := GetOr(algorithm, "bubble");
    var n := ClampSize(size);
    var frames := RunEngine(Resolve(key), data);
    store' := RegisterAsWritten(store, id, key, frames, autoplay, speed, n);
    assert store'[id].algo == key;
  }

  /** "start", corrected: as StartAsWritten, but the run records the key of
      the algorithm that produced its frames (Register), so every store it
      returns from a well-formed one is well formed. */
  method Start(store: Store, id: string, algorithm: Option<string>, size: int, data: seq<int>,
               autoplay: bool, speed: real)
    returns (store': Store)
    requires |data| == ClampSize(size)
    ensures id in store'
    ensures var run := store'[id];
      && run.algo == Key(Resolve(GetOr(algorithm, "bubble"))) && run.cursor == Cursor(0, autoplay)
      && run.size == ClampSize(size) && run.speed == speed
      && EngineContract(data, run.frames)
      && Last(run.frames).hl == DoneHighlights(|data|)
      && Opening(Resolve(GetOr(algorithm, "bubble")), data, run.frames)
    ensures algorithm.None? ==> store'[id].algo == "bubble"
    ensures forall other :: other != id ==> (other in store' <==> other in store)
    ensures forall other :: other != id && other in store ==> store'[other] == store[other]
    ensures WellFormed(store) ==> WellFormed(store')
  {
    var key := GetOr(algorithm, "bubble");
    var n := ClampSize(size);
    var frames := RunEngine(Resolve(key), data);
    store' := Register(store, id, key, frames, autoplay, speed, n);
  }

  /** The result of a request for the current frame. */
  datatype Page =
    | Shown(title: string, index: int, total: int, frame: Frame, autoplay: bool,
            speed: real, key: string, size: int)
    | RedirectToIndex
    | Fault

  /** The run a session names: none when the session holds no id, an empty
      id, or an id the store does not hold. */
  function Active(store: Store, session: Option<string>): (r: Option<string>)
    ensures r.Some? <==> session.Some? && session.value != "" && session.value in store
    ensures r.Some? ==> r == session
  {
    if session.Some? && session.value != "" && session.value in store then session else None
  }

  /** "view": with no active run, directs the client back to the index;
      otherwise clamps the run's cursor into its log, stores the clamped
      cursor, and shows the frame there with the title of the run's
      algorithm. Indexing the table with a key it does not hold (possible
      only for a run stored by RegisterAsWritten), or an empty log, is a
      fault; the clamped cursor is stored before the title is looked up. */
  function View(store: Store, session: Option<string>): (result: (Page, Store))
    ensures Active(store, session).None? ==> result == (RedirectToIndex, store)
    ensures Active(store, session).Some? ==>
      var id := session.value;
      var run := store[id];
      && result.1 == store[id := run.(cursor := run.cursor.(index := ClampIndex(run.cursor.index, |run.frames|)))]
      && !result.0.RedirectToIndex?
      && (result.0.Shown? <==> |run.frames| >= 1 && Lookup(run.algo).Some?)
    ensures result.0.Shown? ==>
      var run := store[session.value];
      && result.0.index == ClampIndex(run.cursor.index, |run.frames|)
      && 0 <= result.0.index < result.0.total == |run.frames|
      && result.0.frame == run.frames[result.0.index]
      && result.0.speed == run.speed && result.0.size == run.size
      && result.0.title == Title(Lookup(run.algo).value)
      && result.0.autoplay == run.cursor.autoplay && result.0.key == run.algo
    ensures WellFormed(store) ==> result.1 == store && !result.0.Fault?
  {
    match Active(store, session)
    case None => (RedirectToIndex, store)
    case Some(id) =>
      var run := store[id];
      var idx := ClampIndex(run.cursor.index, |run.frames|);
      var store' := store[id := run.(cursor := run.cursor.(index := idx))];
      if |run.frames| == 0 then (Fault, store')
      else match Lookup(run.algo)
        case None => (Fault, store')
        case Some(alg) =>
          (Shown(Title(alg), idx, |run.frames|, run.frames[idx], run.cursor.autoplay,
                 run.speed, run.algo, run.size), store')
  }

  /** Where a navigation request sends the client next. */
  datatype Redirect = ToView | ToIndex

  /** "advance": with no active run, back to the index and nothing changes;
      otherwise the command (default "next") moves the run's cursor over
      its log and nothing else of the store changes. */
  function AdvanceRun(store: Store, session: Option<string>, dir: Option<string>): (result: (Redirect, Store))
    ensures Active(store, session).None? ==> result == (ToIndex, store)
    ensures Active(store, session).Some? ==>
      var id := session.value;
      && result.0 == ToView
      && result.1.Keys == store.Keys
      && result.1[id] == store[id].(cursor := Advance(store[id].cursor, Command(dir), |store[id].frames|))
      && forall other :: other in store && other != id ==> result.1[other] == store[other]
    ensures WellFormed(store) ==> WellFormed(result.1)
  {
    match Active(store, session)
    case None => (ToIndex, store)
    case Some(id) =>
      var run := store[id];
      (ToView, store[id := run.(cursor := Advance(run.cursor, Command(dir), |run.frames|))])
  }

  /** A request without a direction advances like an explicit "next". */
  lemma MissingDirIsNext(store: Store, session: Option<string>)
    ensures AdvanceRun(store, session, None) == AdvanceRun(store, session, Some("next"))
  {
  }

  /** "reset": removes the session's run if the store holds it; any other
      session leaves the store as it is. */
  function Reset(store: Store, session: Option<string>): (store': Store)
    ensures session.Some? ==> session.value !in store'
    ensures forall other :: (session.None? || other != session.value) ==>
      (other in store' <==> other in store) && (other in store ==> store'[other] == store[other])
    ensures session.None? || session.value !in store ==> store' == store
    ensures WellFormed(store) ==> WellFormed(store')
  {
    if session.Some? && session.value in store then store - {session.value} else store
  }

  /** Storing the raw key makes the very next "view" of the run fault when
      the key is not in the table. */
  lemma {:induction false} UnknownKeyFaults(store: Store, id: string, key: string, frames: seq<Frame>,
                                             autoplay: bool, speed: real, size: int)
    requires id != "" && |frames| >= 1 && Lookup(key).None?
    ensures View(RegisterAsWritten(store, id, key, frames, autoplay, speed, size), Some(id)).0 == Fault
  {
    var store' := RegisterAsWritten(store, id, key, frames, autoplay, speed, size);
    assert Active(store', Some(id)) == Some(id);
  }

  /** The key "heapsort" is one such key. */
  lemma HeapsortFaults(store: Store, frames: seq<Frame>)
    requires |frames| >= 1
    ensures View(RegisterAsWritten(store, "run", "heapsort", frames, false, 0.25, 30), Some("run")).0 == Fault
  {
    UnknownKeyFaults(store, "run", "heapsort", frames, false, 0.25, 30);
  }

  /** With the corrected registration, the view of a freshly started run
      shows its first frame under the title of the algorithm that produced
      it, bubble sort for an unknown key. */
  lemma {:induction false} RegisteredRunShows(store: Store, id: string, key: string, frames: seq<Frame>,
                                               autoplay: bool, speed: real, size: int)
    requires id != "" && |frames| >= 1
    ensures var page := View(Register(store, id, key, frames, autoplay, speed, size), Some(id)).0;
      && page.Shown? && page.index == 0 && page.frame == frames[0]
      && page.title == Title(Resolve(key))
  {
    var store' := Register(store, id, key, frames, autoplay, speed, size);
    assert Active(store', Some(id)) == Some(id);
    KeyRoundTrip(Resolve(key));
  }
}

=== FILE: selection.dfy ===
/** Selection sort that records a frame before every comparison with the
    current minimum, when a new minimum is found, after every swap and after
    every position is fixed. */
module SelectionSort {
  import opened Frames

  /** The first `bound` elements are in their final places: sorted, and no
      later element is smaller. */
  predicate PrefixFixed(a: seq<int>, bound: int)
    requires 0 <= bound <= |a|
  {
    && SortedRange(a, 0, bound)
    && (forall p, q :: 0 <= p < bound <= q < |a| ==> a[p] <= a[q])
  }

  /** Moving the minimum of a[i..] to position i extends the fixed prefix. */
  lemma {:induction false} PlaceMinimum(a: seq<int>, i: int, minIdx: int)
    requires 0 <= i <= minIdx < |a|
    requires PrefixFixed(a, i)
    requires forall k :: i <= k < |a| ==> a[minIdx] <= a[k]
    ensures PrefixFixed(Swap(a, i, minIdx), i + 1)
  {
    var b := Swap(a, i, minIdx);
    forall p, q | 0 <= p < i + 1 <= q < |b|
      ensures b[p] <= b[q]
    {
      if p < i {
        assert b[p] == a[p];
      }
    }
  }

  /** The index the scan from i compares with i in its second frame: i+1
      when a[i+1] became the new minimum, and otherwise i+2, the next
      candidate. */
  function SecondCompared(a: seq<int>, i: int): int
    requires 0 <= i && i + 1 < |a|
  {
    if a[i + 1] < a[i] then i + 1 else i + 2
  }

  /** How a selection sort of at least three elements opens: after the start
      frame, the comparison of the first two elements, then the comparison
      of position 0 with SecondCompared, all over the unchanged input. */
  predicate Opens(input: seq<int>, frames: seq<Frame>)
  {
    |input| >= 3 ==>
      && |frames| >= 3
      && frames[1] == Frame(input, Highlights([0, 1], [], {}))
      && frames[2] == Frame(input, Highlights([0, SecondCompared(input, 0)], [], {}))
  }

  /** a[j] is a new minimum of the scan from i: smaller than every element
      of a[i..j]. */
  predicate NewMin(a: seq<int>, i: int, j: int)
    requires 0 <= i <= j < |a|
  {
    forall k :: i <= k < j ==> a[j] < a[k]
  }

  /** The positions in i+1..j-1 where the scan from i finds a new minimum. */
  function NewMinima(a: seq<int>, i: int, j: int): set<int>
    requires 0 <= i && j <= |a|
  {
    set k | i < k < j && NewMin(a, i, k)
  }

  /** Scanning one position further adds j to the new minima exactly when
      a[j] is one. */
  lemma NewMinimaStep(a: seq<int>, i: int, j: int)
    requires 0 <= i < j < |a|
    ensures |NewMinima(a, i, j + 1)| == |NewMinima(a, i, j)| + (if NewMin(a, i, j) then 1 else 0)
  {
    var s := NewMinima(a, i, j);
    assert j !in s;
    if NewMin(a, i, j) {
      assert NewMinima(a, i, j + 1) == s + {j};
    } else {
      assert NewMinima(a, i, j + 1) == s;
    }
  }

  /** A frame recorded by the scan from i: it holds the unchanged array,
      compares two valid indices in increasing order, marks no swap and tags
      exactly the fixed positions. */
  predicate ScanFrame(f: Frame, a: seq<int>, i: int, fixed: set<int>)
  {
    && f.arr == a && f.hl.swap == [] && f.hl.sorted == fixed
    && |f.hl.compare| == 2 && i <= f.hl.compare[0] < f.hl.compare[1] < |a|
  }

  /** Every frame of the log is one the scan from i records. */
  predicate ScanLog(log: seq<Frame>, a: seq<int>, i: int, fixed: set<int>)
  {
    forall t :: 0 <= t < |log| ==> ScanFrame(log[t], a, i, fixed)
  }

  lemma ScanLogPush(log: seq<Frame>, f: Frame, a: seq<int>, i: int, fixed: set<int>)
    requires ScanLog(log, a, i, fixed) && ScanFrame(f, a, i, fixed)
    ensures ScanLog(log + [f], a, i, fixed)
  {
    forall t | 0 <= t < |log| + 1
      ensures ScanFrame((log + [f])[t], a, i, fixed)
    {
      if t < |log| {
        assert (log + [f])[t] == log[t];
      }
    }
  }

  /** A scan log holds the array itself in every frame and names only valid
      indices. */
  lemma ScanLogValid(log: seq<Frame>, a: seq<int>, i: int, fixed: set<int>)
    requires 0 <= i && ScanLog(log, a, i, fixed)
    requires forall x :: x in fixed ==> 0 <= x < |a|
    ensures Sized(log, |a|) && InBounds(log, |a|) && Permutes(log, a)
  {
    forall t | 0 <= t < |log|
      ensures IndicesBelow(log[t].hl, |a|)
    {
      assert ScanFrame(log[t], a, i, fixed);
    }
  }

  /** The number of frames the scan from i over a records: one comparison
      per later position and one more per new minimum. */
  function ScanLength(a: seq<int>, i: int): int
    requires 0 <= i < |a|
  {
    |a| - i - 1 + |NewMinima(a, i, |a|)|
  }

  /** The scan from i has looked at a[i..j] and minIdx is the first
      occurrence of its smallest element. */
  predicate Scanned(a: seq<int>, i: int, j: int, minIdx: int)
  {
    && 0 <= i <= minIdx < j <= |a|
    && (forall k :: i <= k < j ==> a[minIdx] <= a[k])
    && (forall k :: i <= k < minIdx ==> a[k] > a[minIdx])
  }

  /** One step of the scan: the frame comparing the current minimum with j,
      then, when a[j] is smaller, the frame of the new minimum at j. */
  method ScanStep(a: seq<int>, i: int, fixed: set<int>, j: int, minIdx: int, emitted: seq<Frame>)
    returns (minIdx': int, emitted': seq<Frame>)
    requires Scanned(a, i, j, minIdx) && j < |a|
    requires |emitted| == j - i - 1 + |NewMinima(a, i, j)| && ScanLog(emitted, a, i, fixed)
    ensures minIdx' == if a[j] < a[minIdx] then j else minIdx
    ensures emitted' == emitted + [Frame(a, Highlights([minIdx, j], [], fixed))]
      + (if a[j] < a[minIdx] then [Frame(a, Highlights([i, j], [], fixed))] else [])
    ensures Scanned(a, i, j + 1, minIdx')
    ensures |emitted'| == j + 1 - i - 1 + |NewMinima(a, i, j + 1)| && ScanLog(emitted', a, i, fixed)
  {
    NewMinimaStep(a, i, j);
    assert a[j] < a[minIdx] <==> NewMin(a, i, j);
    var f := Frame(a, Highlights([minIdx, j], [], fixed));
    assert ScanFrame(f, a, i, fixed);
    ScanLogPush(emitted, f, a, i, fixed);
    emitted' := emitted + [f];
    minIdx' := minIdx;
    if a[j] < a[minIdx] {
      minIdx' := j;
      var g := Frame(a, Highlights([i, j], [], fixed));
      assert ScanFrame(g, a, i, fixed);
      ScanLogPush(emitted', g, a, i, fixed);
      emitted' := emitted' + [g];
    }
  }

  /** The scan for the minimum of a[i..]: returns the index of the first
      occurrence of a smallest element and the frames recorded during the
      scan, one per comparison and one per new minimum, all over the
      unchanged array. */
  method ScanMin(a: seq<int>, i: int, fixed: set<int>) returns (minIdx: int, emitted: seq<Frame>)
    requires 0 <= i < |a|
    requires forall x :: x in fixed ==> 0 <= x < |a|
    ensures i <= minIdx < |a|
    ensures forall k :: i <= k < |a| ==> a[minIdx] <= a[k]
    ensures forall k :: i <= k < minIdx ==> a[k] > a[minIdx]
    ensures |emitted| == ScanLength(a, i) && ScanLog(emitted, a, i, fixed)
    ensures Sized(emitted, |a|) && InBounds(emitted, |a|) && Permutes(emitted, a)
    ensures i + 1 < |a| ==> |emitted| >= 1 && emitted[0] == Frame(a, Highlights([i, i + 1], [], fixed))
    ensures i + 2 < |a| ==>
      |emitted| >= 2 && emitted[1] == Frame(a, Highlights([i, SecondCompared(a, i)], [], fixed))
  {
    minIdx := i;
    emitted := [];
    var j := i + 1;
    while j < |a|
      invariant i < j <= |a|
      invariant Scanned(a, i, j, minIdx)
      invariant |emitted| == j - i - 1 + |NewMinima(a, i, j)| && ScanLog(emitted, a, i, fixed)
      invariant j == i + 1 ==> minIdx == i && emitted == []
      invariant j >= i + 2 ==> |emitted| >= 1 && emitted[0] == Frame(a, Highlights([i, i + 1], [], fixed))
      invariant j == i + 2 && a[i + 1] >= a[i] ==> minIdx == i && |emitted| == 1
      invariant j >= i + 2 && a[i + 1] < a[i] ==>
        |emitted| >= 2 && emitted[1] == Frame(a, Highlights([i, i + 1], [], fixed))
      invariant j >= i + 3 ==>
        |emitted| >= 2 && emitted[1] == Frame(a, Highlights([i, SecondCompared(a, i)], [], fixed))
    {
      minIdx, emitted := ScanStep(a, i, fixed, j, minIdx, emitted);
      j := j + 1;
    }
    ScanLogValid(emitted, a, i, fixed);
  }

  /** The log of one outer iteration over a from i: the scan, then the swap
      frame when the minimum was elsewhere, then the frame fixing i. */
  predicate PassLog(a: seq<int>, i: int, fixed: set<int>, minIdx: int, b: seq<int>, log: seq<Frame>)
    requires 0 <= i < |a|
  {
    var s := ScanLength(a, i);
    && |log| == s + (if minIdx != i then 2 else 1)
    && ScanLog(log[..s], a, i, fixed)
    && (minIdx != i ==> log[s] == Frame(b, Highlights([], [i, minIdx], fixed)))
    && Last(log) == Frame(b, Highlights([], [], fixed + {i}))
  }

  /** One iteration of the outer loop: scan for the minimum of a[i..], swap
      it into position i when it is elsewhere, and mark i sorted. */
  method SelectionPass(a: seq<int>, i: int, fixed: set<int>) returns (minIdx: int, b: seq<int>, emitted: seq<Frame>)
    requires 0 <= i < |a|
    requires PrefixFixed(a, i)
    requires fixed == RangeSet(0, i)
    ensures i <= minIdx < |a|
    ensures forall k :: i <= k < |a| ==> a[minIdx] <= a[k]
    ensures forall k :: i <= k < minIdx ==> a[k] > a[minIdx]
    ensures b == if minIdx != i then Swap(a, i, minIdx) else a
    ensures PassLog(a, i, fixed, minIdx, b, emitted)
    ensures |emitted| >= 1 && Last(emitted) == Frame(b, Highlights([], [], fixed + {i}))
    ensures |b| == |a| && multiset(b) == multiset(a)
    ensures PrefixFixed(b, i + 1)
    ensures Sized(emitted, |a|) && InBounds(emitted, |a|) && Permutes(emitted, a)
    ensures i + 1 < |a| ==> |emitted| >= 1 && emitted[0] == Frame(a, Highlights([i, i + 1], [], fixed))
    ensures i + 2 < |a| ==>
      |emitted| >= 2 && emitted[1] == Frame(a, Highlights([i, SecondCompared(a, i)], [], fixed))
  {
    var scan;
    minIdx, scan := ScanMin(a, i, fixed);
    PlaceMinimum(a, i, minIdx);
    b, emitted := SwapAndFix(a, i, fixed, minIdx, scan);
  }

  /** The end of an outer iteration: after the scan's frames, the swap of i
      and minIdx with its frame when they differ, then the frame fixing i. */
  method SwapAndFix(a: seq<int>, i: int, fixed: set<int>, minIdx: int, scan: seq<Frame>)
    returns (b: seq<int>, emitted: seq<Frame>)
    requires 0 <= i <= minIdx < |a|
    requires fixed == RangeSet(0, i)
    requires |scan| == ScanLength(a, i) && ScanLog(scan, a, i, fixed)
    requires Sized(scan, |a|) && InBounds(scan, |a|) && Permutes(scan, a)
    ensures b == if minIdx != i then Swap(a, i, minIdx) else a
    ensures PassLog(a, i, fixed, minIdx, b, emitted)
    ensures emitted[..|scan|] == scan
    ensures Sized(emitted, |a|) && InBounds(emitted, |a|) && Permutes(emitted, a)
  {
    b := a;
    emitted := scan;
    if minIdx != i {
      b := Swap(a, i, minIdx);
      ShortMarksBelow([], [i, minIdx], |a|);
      emitted := Snapshot(emitted, b, Highlights([], [i, minIdx], fixed));
    }
    RangeSetSplit(0, i);
    emitted := Snapshot(emitted, b, Highlights([], [], fixed + {i}));
    assert emitted[..|scan|] == scan;
  }

  /** Appending a pass keeps how the log opens, and the first pass, appended
      to the start frame alone, establishes it. */
  lemma OpensAfterPass(input: seq<int>, frames: seq<Frame>, pass: seq<Frame>, first: bool)
    requires first ==> |frames| == 1
    requires first && |input| >= 3 ==>
      && |pass| >= 2
      && pass[0] == Frame(input, Highlights([0, 1], [], {}))
      && pass[1] == Frame(input, Highlights([0, SecondCompared(input, 0)], [], {}))
    requires !first ==> Opens(input, frames)
    ensures (frames + pass)[..|frames|] == frames
    ensures Opens(input, frames + pass)
  {
    if |input| >= 3 {
      if first {
        assert (frames + pass)[1] == pass[0] && (frames + pass)[2] == pass[1];
      } else {
        assert (frames + pass)[1] == frames[1] && (frames + pass)[2] == frames[2];
      }
    }
    assert (frames + pass)[..|frames|] == frames;
  }

  /** One iteration of the outer loop appended to the log: the pass over
      position i, after which the log still opens as a selection sort. */
  method PassAndRecord(input: seq<int>, i: int, a: seq<int>, fixed: set<int>, frames: seq<Frame>)
    returns (a': seq<int>, fixed': set<int>, frames': seq<Frame>)
    requires 0 <= i < |input| - 1
    requires |a| == |input| && multiset(a) == multiset(input)
    requires fixed == RangeSet(0, i) && PrefixFixed(a, i)
    requires |frames| >= 1 && frames[0] == Frame(input, NoHighlights)
    requires Sized(frames, |input|) && InBounds(frames, |input|) && Permutes(frames, input)
    requires i == 0 ==> a == input && |frames| == 1
    requires i >= 1 ==> Opens(input, frames)
    ensures |a'| == |input| && multiset(a') == multiset(input)
    ensures fixed' == RangeSet(0, i + 1) && PrefixFixed(a', i + 1)
    ensures |frames'| > |frames| && frames'[..|frames|] == frames
    ensures Last(frames') == Frame(a', Highlights([], [], fixed'))
    ensures Sized(frames', |input|) && InBounds(frames', |input|) && Permutes(frames', input)
    ensures Opens(input, frames')
  {
    var n := |input|;
    var minIdx, pass;
    assert i == 0 ==> fixed == {};
    minIdx, a', pass := SelectionPass(a, i, fixed);
    AppendLog(frames, pass, input, a);
    frames' := frames + pass;
    OpensAfterPass(input, frames, pass, i == 0);
    RangeSetSplit(0, i);
    fixed' := fixed + {i};
  }

  /** The done frame of an empty input tags index -1 as sorted: the final
      `fixed.add(n - 1)` runs even when the loop did not. Every other frame
      names only valid indices. */
  method SelectionSortFrames(input: seq<int>) returns (frames: seq<Frame>)
    ensures EngineContract(input, frames)
    ensures |input| >= 1 ==> Last(frames).hl == DoneHighlights(|input|)
    ensures |input| == 0 ==> Last(frames).hl == Highlights([], [], {-1})
    ensures |input| >= 1 <==> InBounds(frames, |input|)
    ensures Permutes(frames, input)
    ensures Opens(input, frames)
  {
    var a := input;
    var n := |a|;
    var fixed: set<int> := {};
    frames := Snapshot([], a, Highlights([], [], fixed));
    var i := 0;
    while i < n - 1
      invariant 0 <= i <= n && (n == 0 || i <= n - 1)
      invariant |a| == n && multiset(a) == multiset(input)
      invariant fixed == RangeSet(0, i)
      invariant PrefixFixed(a, i)
      invariant |frames| >= 1 && frames[0] == Frame(input, NoHighlights)
      invariant Sized(frames, n) && InBounds(frames, n) && Permutes(frames, input)
      invariant n <= 1 ==> |frames| == 1
      invariant i == 0 ==> a == input && |frames| == 1
      invariant i >= 1 ==> Opens(input, frames)
    {
      a, fixed, frames := PassAndRecord(input, i, a, fixed, frames);
      i := i + 1;
    }
    fixed := fixed + {n - 1};
    var done := Frame(a, Highlights([], [], fixed));
    ghost var body := frames;
    if n >= 1 {
      RangeSetSplit(0, n - 1);
    }
    frames := Snapshot(frames, done.arr, done.hl);
    assert frames[..|frames| - 1] == body;
    assert n >= 3 ==> frames[1] == body[1] && frames[2] == body[2];
    assert Last(frames) == done;
  }
}
